=== FILE: README.md ===
# Cross-enrollment logins: a verified model

This project models the logins pipeline of the CVC-OEI SIS tools in Dafny.
Cross-enrollment records come from one of two sources:

- the Banner staging-table query;
- a directory of partner CSV files (Colleague), where each file is filed as
  completed or failed.

The runner writes the records as a Canvas `logins.csv` and uploads it as a
Canvas SIS import. It then polls the import job until its `workflow_state`
leaves the pending states. The newer runner also archives the file and the
final status under the job's id, and copies the import's error report into
the SIS errors log.

Everything outside the program is a parameter:

- the filesystem is a map from paths to files and directories;
- the HTTP endpoints are scripted (one decoded response or transport failure
  per attempt, each with its latency in seconds);
- the clock is an integer number of seconds;
- the SQL result is a sequence of rows;
- the glob matcher and the per-file CSV parser are functions;
- the one-level walk of the partner-file directory is a sequence of entry
  names and walk failures, in the filesystem's order. `ColleagueSource.Lists`
  says when it names every regular file directly inside the directory, as
  `Files.walk(inputDirectory, 1)` does.

A run of a runner is a pure function that returns a `Trace`: the final
filesystem, the requests sent in order, the lines written to the SIS errors
log, and how the run ended (finished, exited early, or crashed with a
`Failure`).

Modules, in dependency order:

- `Wrappers`: `Option` and `Result`.
- `Decimal`: `Integer.toString` and reading it back.
- `CrossEnrollment`: the record and the binding of partner CSV columns.
- `FileSystem`: `Files.move` (with and without `REPLACE_EXISTING`),
  `Files.createDirectories` and file writes.
- `Http`: JSON values, requests, `fetchLines`.
- `Polling`: `HttpApiService.poll` and `HttpApiPollingService.pollJsonApi`.
- `Sql`: result rows and the `(String)` cast.
- `BannerSource` and `ColleagueSource`: the two record sources.
- `LoginsCsv`: the CSV, the SIS import requests, the job id, the watch
  predicate and the run trace. Both runners share it.
- `LoginsRunner`: `LoginsCsvApplication.Runner.run`.
- `LegacyRunner`: `Application.Runner.run`.

Behaviour the model takes from the code:

- A poll that runs out of attempts without satisfying the watch does not
  fail. It returns the last response it received (`HttpApiService.java:99-101`).
- A transport failure in any attempt aborts the whole poll.
- Banner columns are looked up by label ignoring case. A column the query
  does not return, under any spelling of its label, reads as `null`, which
  is not an error. Only a value that is not a string fails the source.
- Rows are built as Spring Framework 5's `ColumnMapRowMapper` builds them
  (`proxyBeanMethods` at `Application.java:45-47` needs Spring Boot 2.2 or
  later, hence Spring Framework 5): it calls `putIfAbsent` per column, so of
  several columns whose labels agree ignoring case the first non-`NULL`
  value is kept.
- The 30-minute ceiling of the newer poller starts once the first status
  call has returned, so the first attempt is never cut short.
- Partner files that cannot be parsed are moved to the failed directory and
  are not reported further.
- There is no cancellation of a poll.

## Model

All source paths are under `src/main/java/org/cvcoei/sistools/`, written in full in the table.

| member | source | states |
|---|---|---|
| Polling.Settle | src/main/java/org/cvcoei/sistools/common/http/HttpApiService.java:112-119 | An attempt continues the poll exactly when its response was received, the watch does not hold for it and repeats remain. Otherwise it returns that response (the watch holds, or the budget is spent), or fails on a transport failure or an evaluation exception. |
| Polling.PollFrom | src/main/java/org/cvcoei/sistools/common/http/HttpApiService.java:107-123 | At most 101 requests. A returned response is the one the last attempt received, and the watch held on it unless all 101 attempts were used. A transport or evaluation failure is the last attempt's. With no deadline the poll never times out. With a deadline the clock never passes it. |
| Polling.Poll | src/main/java/org/cvcoei/sistools/common/http/HttpApiService.java:102-124 | The watch is compiled once before any request: an invalid expression sends nothing. Otherwise 1 to 101 requests are sent, and the caller gets control back within 30 minutes of the end of the first call, which runs before the wait starts. The first attempt is never cut short: if it ends the poll, the result is its own. A timeout therefore means the first response was received and the watch did not hold on it. |
| Polling.PollJsonApi | src/main/java/org/cvcoei/sistools/common/http/HttpApiPollingService.java:53-82 | The same loop with the expression parsed once up front and no wall-clock ceiling: it never times out, and sends 1 to 101 requests. |
| Polling.EarlierAttemptsDidNotHold | src/main/java/org/cvcoei/sistools/common/http/HttpApiService.java:117-119 | No request is issued after a satisfying response, a transport failure or an evaluation failure: every attempt before the last got a response on which the watch did not hold. |
| Polling.PollClock | src/main/java/org/cvcoei/sistools/common/http/HttpApiService.java:112-115 | Unless it timed out, the poll took exactly the time spent in its calls plus one fixed backoff interval between consecutive attempts. |
| Polling.FirstHoldingResponseIsReturned | src/main/java/org/cvcoei/sistools/common/http/HttpApiPollingService.java:73-78 | If the watch first holds on the n-th response (n ≤ 101), the poll returns that response after exactly n requests, and the satisfying element is included. |
| Polling.ExhaustedPollReturnsLastResponse | src/main/java/org/cvcoei/sistools/common/http/HttpApiPollingService.java:69-81 | If the watch holds on none of 101 responses, all 101 requests are made and the 101st response is returned rather than a failure. |
| Polling.DeadlineOnlyTruncates | src/main/java/org/cvcoei/sistools/common/http/HttpApiService.java:121-123 | The ceiling changes nothing for a poll that would end by the deadline. One that would end later times out at the deadline instead, having sent no more requests than the unbounded poll. |
| Polling.TimeoutWins | src/main/java/org/cvcoei/sistools/common/http/HttpApiService.java:121-123 | When the unbounded poll would still be running 30 minutes after the first call returned, `poll` times out even though repeats remain. |
| Polling.PollersAgreeWithinCeiling | src/main/java/org/cvcoei/sistools/common/http/HttpApiService.java:102-124 | The two pollers give the same outcome whenever the unbounded one finishes within 30 minutes of the end of its first call. |
| Http.FetchLines | src/main/java/org/cvcoei/sistools/common/http/HttpApiService.java:77-91 | Each line of the body is handed over once, in order, until the body ends or a read fails. After a failure the lines already delivered stay delivered, and the failure is reported at the first unread position. |
| Http.FetchLinesFailsIffSomeReadFails | src/main/java/org/cvcoei/sistools/common/http/HttpApiService.java:77-91 | The download fails if and only if some read fails. Every line before the first failure has then been delivered. |
| Decimal.IntToString | src/main/java/org/cvcoei/sistools/csv/logins/LoginsCsvApplication.java:176 | `Integer.toString`: a non-empty numeral that starts with a minus sign exactly when the id is negative. |
| Decimal.ParseNatToString | src/main/java/org/cvcoei/sistools/csv/logins/LoginsCsvApplication.java:176 | Reading the decimal numeral of a natural number back gives the number. |
| Decimal.ParseIntToString | src/main/java/org/cvcoei/sistools/csv/logins/LoginsCsvApplication.java:176 | Reading the rendered id back gives the id, negative ids included. |
| Decimal.IntToStringInjective | src/main/java/org/cvcoei/sistools/csv/logins/LoginsCsvApplication.java:176 | Different ids render differently. |
| CrossEnrollment.SetCanvasRootAccount | src/main/java/org/cvcoei/sistools/csv/logins/CrossEnrollmentRecord.java:51-57 | The setter stores its value, the getter then returns it, and the other three fields are unchanged. |
| CrossEnrollment.SetHomeCollegeId | src/main/java/org/cvcoei/sistools/csv/logins/CrossEnrollmentRecord.java:59-65 | The setter stores its value, the getter then returns it, and the other three fields are unchanged. |
| CrossEnrollment.SetHomeCollegeLoginId | src/main/java/org/cvcoei/sistools/csv/logins/CrossEnrollmentRecord.java:67-73 | The setter stores its value, the getter then returns it, and the other three fields are unchanged. |
| CrossEnrollment.SetTeachingCollegeId | src/main/java/org/cvcoei/sistools/csv/logins/CrossEnrollmentRecord.java:75-81 | The setter stores its value, the getter then returns it, and the other three fields are unchanged. |
| CrossEnrollment.IndexOf | src/main/java/org/cvcoei/sistools/csv/logins/CrossEnrollmentRecord.java:29-39 | Looking a column up by name finds the first header cell with that name, and fails exactly when the header lacks it. |
| CrossEnrollment.RequiredCell | src/main/java/org/cvcoei/sistools/csv/logins/CrossEnrollmentRecord.java:29-39 | A required column yields a value exactly when the header names it and the row's cell under it is not blank (empty or whitespace only, as `StringUtils.isBlank` decides). The value is the cell as it stands. |
| CrossEnrollment.BindRow | src/main/java/org/cvcoei/sistools/csv/logins/CrossEnrollmentRecord.java:29-39 | Binding by name: `canvasRootAccount`, `homeSISUserId`, `canvasLoginId` and `studentid` fill the root account, home id, home login and teaching id. A row binds if and only if it has the header's length, every column is present and no required cell is blank. |
| CrossEnrollment.BindRows | src/main/java/org/cvcoei/sistools/csv/logins/ColleagueCrossEnrollmentRecordSource.java:99-103 | A file binds if and only if its header is complete and every row binds. Then there is one record per row, in row order. A single bad row yields no partial list. |
| CrossEnrollment.ParseLoginsFile | src/main/java/org/cvcoei/sistools/csv/logins/ColleagueCrossEnrollmentRecordSource.java:99-103 | An empty file is rejected. Otherwise the file parses if and only if the header names all four columns and every data row binds. The records are then the bound data rows, in row order. |
| CrossEnrollment.PartnerFileRoundTrip | src/main/java/org/cvcoei/sistools/csv/logins/CrossEnrollmentRecord.java:29-39 | A partner file written under the four column names from records with no blank field parses back to exactly those records. |
| Sql.StringColumn | src/main/java/org/cvcoei/sistools/csv/logins/BannerCrossEnrollmentRecordSource.java:74-77 | The label is looked up ignoring case. The cast fails exactly on a present, non-string value. A missing column or SQL `NULL` reads as `null`. A string reads as itself. |
| Sql.ToRow | src/main/java/org/cvcoei/sistools/csv/logins/BannerCrossEnrollmentRecordSource.java:70 | A row holds a value under a folded label exactly when some column carries that label in some spelling. |
| Sql.ToRowFirstWins | src/main/java/org/cvcoei/sistools/csv/logins/BannerCrossEnrollmentRecordSource.java:70 | Of several columns whose labels agree ignoring case, the row keeps the value of the first that is not `NULL`: a later column replaces an earlier value only when that value is `NULL`. |
| Sql.ToRowAllNull | src/main/java/org/cvcoei/sistools/csv/logins/BannerCrossEnrollmentRecordSource.java:70 | When every column carrying a label is `NULL`, the row holds `NULL` under it, if it holds the label at all. |
| Sql.LookupIgnoresCase | src/main/java/org/cvcoei/sistools/csv/logins/BannerCrossEnrollmentRecordSource.java:74-77 | Asking for `root_account` finds a column Oracle labels `ROOT_ACCOUNT`: the cast reads the value of the first column whose label matches ignoring case and whose value is not `NULL`. |
| Sql.NullColumnsReadNull | src/main/java/org/cvcoei/sistools/csv/logins/BannerCrossEnrollmentRecordSource.java:74-77 | A label that no column carries, in any case, or whose every column is `NULL`, reads as `null`. |
| BannerSource.ToRecord | src/main/java/org/cvcoei/sistools/csv/logins/BannerCrossEnrollmentRecordSource.java:72-78 | A row maps to a record if and only if all four columns cast. Then `root_account`, `existing_user_id`, `login_id` and `user_id` fill the constructor's four positions in that order. |
| BannerSource.GetRecords | src/main/java/org/cvcoei/sistools/csv/logins/BannerCrossEnrollmentRecordSource.java:53-87 | The call succeeds if and only if the query succeeds and every row casts. It then returns one record per row, in row order. Zero rows give an empty list. Otherwise it returns no partial list. |
| FileSystem.Move | src/main/java/org/cvcoei/sistools/common/io/FileUtilities.java:60-68 | The move succeeds exactly under the rename conditions. The target then holds the source's former node and is returned, the source is gone, an existing target is replaced, and no other path changes. A failure leaves the filesystem unchanged. |
| FileSystem.MovePreservesWellFormed | src/main/java/org/cvcoei/sistools/common/io/FileUtilities.java:60-62 | A successful move leaves every entry inside an existing directory. |
| FileSystem.MoveNoReplace | src/main/java/org/cvcoei/sistools/csv/logins/LoginsCsvApplication.java:207-209 | Without `REPLACE_EXISTING`: the same as the replacing move, except that an existing distinct target is `FileAlreadyExists`. |
| FileSystem.WriteFile | src/main/java/org/cvcoei/sistools/csv/logins/LoginsCsvApplication.java:199-204 | Writing succeeds if and only if the path is not a directory and its directory exists. The file then holds exactly the content, and nothing else changes. |
| FileSystem.WriteFilePreservesWellFormed | src/main/java/org/cvcoei/sistools/csv/logins/LoginsCsvApplication.java:199-204 | A successful write leaves every entry inside an existing directory. |
| FileSystem.CreateDirectories | src/main/java/org/cvcoei/sistools/csv/logins/ColleagueCrossEnrollmentRecordSource.java:69-76 | The call succeeds if and only if no prefix of the path is a regular file. Afterwards every prefix is a directory, existing entries are kept, and only those prefixes are added, as directories. |
| FileSystem.CreateExistingDirectories | src/main/java/org/cvcoei/sistools/csv/logins/ColleagueCrossEnrollmentRecordSource.java:69-76 | Creating a directory that already exists changes nothing. |
| FileSystem.CreateDirectoriesIdempotent | src/main/java/org/cvcoei/sistools/csv/logins/ColleagueCrossEnrollmentRecordSource.java:69-76 | Creating the same directories twice is the same as creating them once. |
| FileSystem.CreateDirectoriesPreservesWellFormed | src/main/java/org/cvcoei/sistools/csv/logins/ColleagueCrossEnrollmentRecordSource.java:69-76 | Creating directories leaves every entry inside an existing directory. |
| ColleagueSource.Quarantine | src/main/java/org/cvcoei/sistools/csv/logins/ColleagueCrossEnrollmentRecordSource.java:111-117 | A file that could not be processed goes to the failed directory under the same name and contributes no records. If that move fails, the failure propagates. |
| ColleagueSource.QuarantineFrame | src/main/java/org/cvcoei/sistools/csv/logins/ColleagueCrossEnrollmentRecordSource.java:113 | Quarantining touches only the file and its namesakes in the two directories, and removes the file from the input directory. |
| ColleagueSource.ProcessFile | src/main/java/org/cvcoei/sistools/csv/logins/ColleagueCrossEnrollmentRecordSource.java:93-117 | A file that parses and can be moved goes to completed under its own name, and its parsed records are returned. A file that does not parse, or whose move to completed throws, is quarantined: it goes to failed and contributes no records, even when it parsed. Either way the file keeps its content, leaves the input directory, and only it and its two namesakes change. |
| ColleagueSource.Scan | src/main/java/org/cvcoei/sistools/csv/logins/ColleagueCrossEnrollmentRecordSource.java:83-126 | Only listed entries and their namesakes change. Success implies the walk did not fail and no listed matching regular file remains in the input directory. |
| ColleagueSource.GetRecords | src/main/java/org/cvcoei/sistools/csv/logins/ColleagueCrossEnrollmentRecordSource.java:59-132 | After creating the two directories: success implies the walk did not fail and that no matching regular file the walk lists is left in the input directory. When the walk lists every regular file of the input directory, success implies no matching regular file is left there at all. |
| ColleagueSource.SelectedStep | src/main/java/org/cvcoei/sistools/csv/logins/ColleagueCrossEnrollmentRecordSource.java:93-117 | A matching file of a clean directory contributes its parsed records and is filed (completed if it parses, failed if not) under its own name and with its content. Only its own paths change, and the rest of the walk stays clean. |
| ColleagueSource.SkippedStep | src/main/java/org/cvcoei/sistools/csv/logins/ColleagueCrossEnrollmentRecordSource.java:90 | A directory or a non-matching entry is left where it is and contributes nothing. |
| ColleagueSource.StepClean | src/main/java/org/cvcoei/sistools/csv/logins/ColleagueCrossEnrollmentRecordSource.java:90-117 | One step of the scan files its entry, changes only that entry's own paths, and leaves the rest of the walk clean. |
| ColleagueSource.ScanClean | src/main/java/org/cvcoei/sistools/csv/logins/ColleagueCrossEnrollmentRecordSource.java:83-126 | On a clean directory the scan returns exactly the parsed files' records, concatenated in walk order. Every matching file the walk lists is moved, under its own name and with its content, to the completed directory if it parses and to the failed directory if not, and is gone from the input directory; a same-named file already sitting in the other directory is left where it is. When the walk lists every regular file of the input directory, no matching regular file is left there. |
| ColleagueSource.ScanEmptiesInput | src/main/java/org/cvcoei/sistools/csv/logins/ColleagueCrossEnrollmentRecordSource.java:83-90 | A scan that succeeds over a walk listing every regular file of the input directory leaves no matching regular file there: listed files were moved, and a path the walk does not name is neither touched nor a regular file. |
| ColleagueSource.SetupClean | src/main/java/org/cvcoei/sistools/csv/logins/ColleagueCrossEnrollmentRecordSource.java:68-76 | Creating the completed and failed directories succeeds when no ancestor of either is a regular file. It adds only directories, so the regular files, and thus the expected records, are unchanged, and the scan then runs in a clean directory. |
| ColleagueSource.GetRecordsClean | src/main/java/org/cvcoei/sistools/csv/logins/ColleagueCrossEnrollmentRecordSource.java:59-132 | When both directories can be created or already exist, and the walk is orderly (distinct names, no failure, no namesake directory with entries), `getRecords` returns the parsed files' records concatenated in walk order. Every matching file the walk lists is moved, under its own name and with its content, to the completed directory if it parses and to the failed directory if not, and is gone from the input directory; a same-named file already sitting in the other directory is left where it is. When the walk lists every regular file of the input directory, none that matches is left there. This covers the first run, where the directories are created. |
| LoginsCsv.RecordRows | src/main/java/org/cvcoei/sistools/csv/logins/LoginsCsvApplication.java:121-128 | One CSV row per record, in record order. |
| LoginsCsv.CsvContent | src/main/java/org/cvcoei/sistools/csv/logins/LoginsCsvApplication.java:116-128 | The file is `CSV_HEADER` followed by one row per record, in record order. |
| LoginsCsv.PartnerColumnsLineUp | src/main/java/org/cvcoei/sistools/csv/logins/LoginsCsvApplication.java:122-127 | For a partner-file record, the CSV columns `user_id`, `login_id`, `existing_user_id`, `root_account` carry the partner columns `studentid`, `canvasLoginId`, `homeSISUserId`, `canvasRootAccount`. |
| LoginsCsv.BannerColumnsLineUp | src/main/java/org/cvcoei/sistools/csv/logins/LoginsCsvApplication.java:122-127 | For a Banner record, each CSV column equals the staging-table column of the same name. |
| LoginsCsv.CsvRoundTrip | src/main/java/org/cvcoei/sistools/csv/logins/LoginsCsvApplication.java:116-129 | The written file is the fixed header followed by the records. Reading it back by header yields the records, provided none holds an empty string. |
| LoginsCsv.RowsRoundTrip | src/main/java/org/cvcoei/sistools/csv/logins/LoginsCsvApplication.java:121-128 | The record rows read back to the records. |
| LoginsCsv.ImportRequest | src/main/java/org/cvcoei/sistools/csv/logins/LoginsCsvApplication.java:132-156 | The upload is a POST, with the bearer token, of the CSV to `api/v1/accounts/<account>/sis_imports` on the Canvas host, with `import_type=instructure_csv` and `extension=csv`. |
| LoginsCsv.StatusRequest | src/main/java/org/cvcoei/sistools/csv/logins/LoginsCsvApplication.java:168-185 | The status request is a GET, with the bearer token and no body, of a sixth segment under the same collection and query; that segment reads back as the job id. |
| LoginsCsv.StatusRequestNamesTheJob | src/main/java/org/cvcoei/sistools/csv/logins/LoginsCsvApplication.java:132-185 | The status URL is the import URL (`api/v1/accounts/<account>/sis_imports`, same host and query) plus one segment that reads back as the job id. Both requests carry the same bearer token. |
| LoginsCsv.StatusRequestsDistinguishJobs | src/main/java/org/cvcoei/sistools/csv/logins/LoginsCsvApplication.java:168-185 | Different jobs are polled with different requests. |
| LoginsCsv.IntValue | src/main/java/org/cvcoei/sistools/csv/logins/LoginsCsvApplication.java:164 | `intValue()` keeps an id within the 32-bit range and saturates one outside it. |
| LoginsCsv.ImportId | src/main/java/org/cvcoei/sistools/csv/logins/LoginsCsvApplication.java:164 | The id is read if and only if `id` is a number. A missing or `null` id and any other value fail differently. |
| LoginsCsv.ImportFinished | src/main/java/org/cvcoei/sistools/csv/logins/LoginsCsvApplication.java:190-194 | The watch throws exactly when `workflow_state` is absent. It holds exactly when the state is present and is not one of the strings `initializing`, `created`, `importing`, so a `null` or numeric state ends the poll. |
| LoginsCsv.ImportFinishedOnFinalStates | src/main/java/org/cvcoei/sistools/csv/logins/LoginsCsvApplication.java:194 | For a string state the watch holds if and only if the state is not pending. Canvas's terminal states all end the poll. |
| LoginsCsv.PollReturnsFinishedJob | src/main/java/org/cvcoei/sistools/csv/logins/LoginsCsvApplication.java:190-194 | A returned status has a `workflow_state`, and it is pending only when all 101 attempts were spent. |
| LoginsCsv.ErrorsUrl | src/main/java/org/cvcoei/sistools/csv/logins/LoginsCsvApplication.java:214-223 | The errors URL is absent exactly when the final status has no `errors_attachment`. When it is present, it is the attachment's `url` string. An unreadable attachment is an error. |
| LoginsRunner.NamesDistinguishJobs | src/main/java/org/cvcoei/sistools/csv/logins/LoginsCsvApplication.java:199-209 | Archive names and status-log names tell jobs apart, and an archive name is never a status-log name. |
| LoginsRunner.StatusLogName | src/main/java/org/cvcoei/sistools/csv/logins/LoginsCsvApplication.java:199 | The status log is `canvas_sis_import_status_<id>.log`, and the id reads back from the name. |
| LoginsRunner.ArchiveName | src/main/java/org/cvcoei/sistools/csv/logins/LoginsCsvApplication.java:207-209 | The archive is `logins_<id>.csv`, and the id reads back from the name. |
| LoginsRunner.CreateOutputDirectoryAsWritten | src/main/java/org/cvcoei/sistools/csv/logins/LoginsCsvApplication.java:111-113 | As written: an output path without a parent crashes. Otherwise the step succeeds exactly when `createDirectories` does. |
| LoginsCsv.CreateOutputDirectory | src/main/java/org/cvcoei/sistools/csv/logins/Application.java:107-109 | A bare file name changes nothing. Otherwise the step succeeds if and only if no proper prefix of the output is a regular file. Afterwards the output's directory exists, and the only additions are directories above the output. |
| LoginsRunner.BareOutputNameCrashes | src/main/java/org/cvcoei/sistools/csv/logins/LoginsCsvApplication.java:111-113 | The as-written step and the guarded step agree when the output has a parent. They differ on a bare file name: a crash against no change. |
| LoginsRunner.ReportErrors | src/main/java/org/cvcoei/sistools/csv/logins/LoginsCsvApplication.java:213-226 | The errors log is written if and only if the final status has `errors_attachment`. The attachment URL is fetched, without credentials, exactly when it is readable. The log is the banner line followed by the downloaded lines in order. The step finishes if and only if there is no attachment or it downloads without failure. |
| LoginsRunner.Archive | src/main/java/org/cvcoei/sistools/csv/logins/LoginsCsvApplication.java:198-226 | A finished archive step has written the status log and renamed the CSV to `logins_<id>.csv` (refusing to replace), and sends at most the errors download. |
| LoginsRunner.Import | src/main/java/org/cvcoei/sistools/csv/logins/LoginsCsvApplication.java:159-194 | After the upload, at most 101 status requests and one errors download are sent. |
| LoginsRunner.Run | src/main/java/org/cvcoei/sistools/csv/logins/LoginsCsvApplication.java:98-227 | A failing source crashes the run before anything else. An empty batch exits early with no effect, and only an empty batch exits early. Any request sequence starts with the upload of the CSV of the records. No run sends more than 103 requests. The output directory step is the one as written. |
| LoginsRunner.BareOutputRunCrashes | src/main/java/org/cvcoei/sistools/csv/logins/LoginsCsvApplication.java:110-113 | A non-empty batch whose output path has no directory part crashes with the null parent before anything is written or sent. |
| LoginsRunner.Written | src/main/java/org/cvcoei/sistools/csv/logins/LoginsCsvApplication.java:110-129 | Once written, the output path has a directory part, the output file holds the header and the records' rows, and its directory exists. |
| LoginsRunner.CsvWritten | src/main/java/org/cvcoei/sistools/csv/logins/LoginsCsvApplication.java:110-129 | The CSV is written whenever the output path has a directory part, no ancestor of the output is a file and the output is not a directory. Nothing but the output and new directories above it changes. |
| LoginsRunner.RunUploads | src/main/java/org/cvcoei/sistools/csv/logins/LoginsCsvApplication.java:110-160 | A batch whose CSV is written is uploaded and the job followed. If the CSV cannot be written, nothing is sent. |
| LoginsRunner.ImportFollowsJob | src/main/java/org/cvcoei/sistools/csv/logins/LoginsCsvApplication.java:159-196 | A finished import read a numeric id, polled that job until a status came back, and archived with that status. |
| LoginsRunner.ArchiveKeepsUpload | src/main/java/org/cvcoei/sistools/csv/logins/LoginsCsvApplication.java:198-209 | When the output's own file name is not the status-log name, after archiving the CSV's content sits under `logins_<id>.csv` next to the output and the status log holds the rendered final status; the output path is gone unless the output already carried the archive name. (An output named like the status log is overwritten by the log before the move, as the code does, and is not covered.) |
| LoginsRunner.FinishedRunUploadsThenPolls | src/main/java/org/cvcoei/sistools/csv/logins/LoginsCsvApplication.java:146-194 | A finished run first uploaded the CSV of its records, then sent the job's own status request once per poll attempt. |
| LoginsRunner.FinishedRunRequests | src/main/java/org/cvcoei/sistools/csv/logins/LoginsCsvApplication.java:146-226 | A finished run's requests are the upload, the status polls and the archive step's requests, in that order. |
| LoginsRunner.FinishedRunArchivesTheUpload | src/main/java/org/cvcoei/sistools/csv/logins/LoginsCsvApplication.java:199-209 | A finished run had an output path, an upload whose response carried an import id, and a poll that returned. When the output's own file name is not the job's status-log name, the run leaves the uploaded CSV under the job's archive name and the final status in the job's log, both named with the same id as the status URL, and the output path is gone unless it already carried the archive name. |
| LoginsRunner.ArchiveFinishes | src/main/java/org/cvcoei/sistools/csv/logins/LoginsCsvApplication.java:198-226 | With the output in place, free archive and log names, and no errors attachment, the archive step finishes. |
| LoginsRunner.RunFinishes | src/main/java/org/cvcoei/sistools/csv/logins/LoginsCsvApplication.java:98-227 | A non-empty batch with an output path that has a directory part and can be written, a numeric job id, a poll that returns, no error report, and free archive and log names finishes. |
| LegacyRunner.LegacyRow | src/main/java/org/cvcoei/sistools/csv/logins/Application.java:121-126 | A row gives a line if and only if its four columns cast. `user_id`, `login_id` and `existing_user_id` are copied from the columns of the same name, and `root_account` is followed by the trust suffix. A failure names the offending column. |
| LegacyRunner.Concat | src/main/java/org/cvcoei/sistools/csv/logins/Application.java:125 | `root_account` followed by the trust suffix; a `null` account is written as the text `null` before the suffix. |
| LegacyRunner.LegacyRows | src/main/java/org/cvcoei/sistools/csv/logins/Application.java:117-127 | One line per row, in query order, up to the first row that does not cast. The loop fails if and only if some row does not cast. |
| LegacyRunner.PartialCsvStopsAtFirstBadRow | src/main/java/org/cvcoei/sistools/csv/logins/Application.java:117-127 | After a bad row the file holds the header and the lines of exactly the rows before the first uncastable row. |
| LegacyRunner.LegacyCsv | src/main/java/org/cvcoei/sistools/csv/logins/Application.java:112-128 | The header comes first. A query that throws leaves only the header. |
| LegacyRunner.LegacyRowMatchesRecordRow | src/main/java/org/cvcoei/sistools/csv/logins/Application.java:121-126 | With an empty suffix and a root account present, the older runner writes the same line as the newer one does for the Banner record of that row. A `null` root account becomes the text `null` here and an empty field there. |
| LegacyRunner.Import | src/main/java/org/cvcoei/sistools/csv/logins/Application.java:158-194 | The older import polls with no ceiling: it never times out, sends at most 101 status requests and writes nothing. |
| LegacyRunner.Run | src/main/java/org/cvcoei/sistools/csv/logins/Application.java:102-197 | The run never exits early and never times out. Any request sequence starts with the upload of the complete CSV, so a file cut short by a bad row is never uploaded. |
| LegacyRunner.Prepared | src/main/java/org/cvcoei/sistools/csv/logins/Application.java:106-128 | Once prepared, the output file holds the lines the writer received. |
| LegacyRunner.RunAfterWrite | src/main/java/org/cvcoei/sistools/csv/logins/Application.java:106-162 | A failed preparation crashes with an I/O failure and sends nothing. A bad row crashes with the written prefix in place. A complete file is uploaded and the job followed. |
| LegacyRunner.BadRowLeavesPartialCsv | src/main/java/org/cvcoei/sistools/csv/logins/Application.java:112-128 | A run stopped by a bad row sends nothing and leaves the partial file at the output path. |
| LegacyRunner.EmptyQueryIsUploaded | src/main/java/org/cvcoei/sistools/csv/logins/Application.java:112-162 | Zero rows still produce a header-only file, and it is uploaded. |
| LegacyRunner.LegacyRunFinishes | src/main/java/org/cvcoei/sistools/csv/logins/Application.java:102-197 | When every row casts, the output is writable, the upload names a job and the poll returns, the run finishes. The output holds the header plus one line per row. |

## Left out

- Expression evaluation: the general Spring expression language is not modelled. The watch is the one fixed predicate both runners use, and any compiled expression is a function from a response to a verdict.
- JSON decoding: responses are already decoded maps. Numbers carry integer values only, so fractional job ids and `Double` truncation are not modelled; an id is an integer saturated to 32 bits.
- CSV bytes: quoting, escaping and line endings are not modelled. A file is a table of cells. A `null` field and an empty string are both written as an empty field, which is why the round trip requires non-empty fields.
- OpenCSV binding details: case-insensitive header matching, duplicate header names and bean conversion errors other than a missing or blank required cell are not modelled. Per-file parsing in the Colleague source is a parameter.
- Charset detection: the detection and reading of a partner file are part of the per-file parser parameter.
- Glob matching: the `PathMatcher` is a parameter.
- Directory walk: the walk is a parameter and is not derived from the filesystem. The guarantees about every file of the input directory hold when `ColleagueSource.Lists` holds of it; a walk that omits a file leaves that file alone.
- Sql.Fold: only ASCII letters are lower-cased. `toLowerCase` under the default locale, with its non-ASCII mappings, is not modelled.
- Time and scheduling: the clock is integer seconds with a fixed interval per attempt. The Reactor scheduler, threads, cancellation and the thread that blocks on the poll are not modelled.
- HTTP transport: URL syntax, encoding and status codes are not modelled. A URL taken from a response is any string.
- Upload body: the body is the content the runner just wrote; re-reading the file (`Files.readAllBytes`) is not modelled separately.
- Status log rendering: the pretty-printing of the final status is a parameter of the world.
- Logging other than the SIS errors log is not modelled.
- `System.exit(0)` on an empty batch is the `ExitedEarly` exit of the trace.
- Spring wiring, configuration, the command-line launcher, the Oracle datasource setup and the PeopleSoft stub (which always throws) are not part of this model.
- Paths: no normalisation of absolute paths, `.` or `..`. A path is a sequence of names relative to the working directory.
- Directories with entries: moving one is reported as a failure instead of renaming the subtree. The scan only moves regular files.
- Exceptions: the Java exception types are collapsed into the `Failure`, `ScanError`, `SqlError` and `IoError` constructors.
- ColleagueSource.GetRecords: its own contract states only the success-side guarantees: nothing the walk lists, or with a complete walk nothing at all, that matches is left in the input directory. That the records are exactly the parsed files' records, in walk order, and that every file is filed is proved in `ColleagueSource.GetRecordsClean`, whenever no ancestor of the completed or failed directory is a regular file and the walk is orderly. An orderly walk lists distinct names without failing, and neither directory holds a namesake directory with entries.
- ColleagueSource.Scan: its contract states the frame and that no matching file the walk lists is left behind; that a complete walk leaves none at all is `ColleagueSource.ScanEmptiesInput`. The records and the landing place of each file are stated for one file in `ColleagueSource.ProcessFile`, and for a whole orderly walk in `ColleagueSource.ScanClean`. For a walk that lists a name twice, or where a move to completed fails, the concatenated result is not stated.
- ColleagueSource.ScanClean: that no matching file is left in the input directory is promised only for a walk satisfying `ColleagueSource.Lists`, since the walk is a parameter; for any other walk it covers the files the walk lists.
- ColleagueSource.GetRecordsClean: the same holds as for `ColleagueSource.ScanClean`: the whole input directory is covered when the walk satisfies `ColleagueSource.Lists`, and otherwise only the listed files.
- LoginsRunner.Archive: its contract describes the finished case and the request bound. The resulting files are stated in `LoginsRunner.ArchiveKeepsUpload`.
- LoginsRunner.Import: its contract bounds the requests. What a finished import did is stated in `LoginsRunner.ImportFollowsJob`.

## Findings

| source | as written | input that shows it | evidently intended | confidence | as-written member | corrected member |
|---|---|---|---|---|---|---|
| src/main/java/org/cvcoei/sistools/csv/logins/LoginsCsvApplication.java:111-113 | `createDirectories(outputPath.getParent())` with no null check: a path with no parent throws `NullPointerException` before the CSV is written | `outputFile` = `logins.csv` (a bare file name) | create the parent only when there is one, as `Application.java:107-109` does, and write `logins.csv` into the working directory | high; not executed | LoginsRunner.CreateOutputDirectoryAsWritten, LoginsRunner.BareOutputNameCrashes, LoginsRunner.BareOutputRunCrashes | LoginsCsv.CreateOutputDirectory |

=== FILE: banner_source.dfy ===
/** `BannerCrossEnrollmentRecordSource.getRecords`: one record per row of
    the staging-table query. */
module BannerSource {
  import opened Wrappers
  import opened Sql
  import opened CrossEnrollment

  // Column labels of the staging-table query.
  const RootAccount := "root_account"
  const ExistingUserId := "existing_user_id"
  const LoginId := "login_id"
  const UserId := "user_id"

  /** Every column the mapping reads casts to `String`. */
  predicate RowCastable(row: Row) {
    && Castable(row, RootAccount)
    && Castable(row, ExistingUserId)
    && Castable(row, LoginId)
    && Castable(row, UserId)
  }

  /** The column a missing key or a `NULL` reads as. */
  function Cell(row: Row, column: string): Option<string>
    requires Castable(row, column)
  {
    StringColumn(row, column).value
  }

  /** The four-argument constructor applied to the row's columns. */
  function ToRecord(row: Row): (r: Result<Record, SqlError>)
    ensures r.Ok? <==> RowCastable(row)
    ensures r.Ok? ==>
      && r.value.canvasRootAccount == Cell(row, RootAccount)
      && r.value.homeCollegeId == Cell(row, ExistingUserId)
      && r.value.homeCollegeLoginId == Cell(row, LoginId)
      && r.value.teachingCollegeId == Cell(row, UserId)
  {
    var root :- StringColumn(row, RootAccount);
    var existing :- StringColumn(row, ExistingUserId);
    var login :- StringColumn(row, LoginId);
    var user :- StringColumn(row, UserId);
    Ok(Record(root, existing, login, user))
  }

  /** All-or-nothing: a query failure or any uncastable column fails the
      whole call, and a successful call maps every row, in row order. */
  method GetRecords(query: Option<seq<Row>>) returns (r: Result<seq<Record>, SqlError>)
    ensures r.Ok? <==> query.Some? && forall i :: 0 <= i < |query.value| ==> RowCastable(query.value[i])
    ensures r.Ok? ==> |r.value| == |query.value|
    ensures r.Ok? ==> forall i :: 0 <= i < |query.value| ==> ToRecord(query.value[i]) == Ok(r.value[i])
  {
    if query.None? {
      return Err(QueryFailed);
    }
    var rows := query.value;
    var records: seq<Record> := [];
    var i := 0;
    while i < |rows|
      invariant 0 <= i <= |rows|
      invariant |records| == i
      invariant forall j :: 0 <= j < i ==> RowCastable(rows[j]) && ToRecord(rows[j]) == Ok(records[j])
    {
      var next := ToRecord(rows[i]);
      if next.Err? {
        return Err(next.error);
      }
      records := records + [next.value];
      i := i + 1;
    }
    return Ok(records);
  }
}

=== FILE: colleague_source.dfy ===
/** `ColleagueCrossEnrollmentRecordSource.getRecords`: scans a directory of
    partner CSV files, keeps the records of each file that parses and
    quarantines each file that does not. */
module ColleagueSource {
  import opened Wrappers
  import opened FileSystem
  import opened CrossEnrollment

  /** The configured input directory and the names of the completed and
      failed directories inside it. */
  datatype Settings = Settings(inputDirectory: Path, completedName: string, failedName: string)

  function InputPath(s: Settings, name: string): Path {
    Resolve(s.inputDirectory, name)
  }

  function CompletedDirectory(s: Settings): Path {
    Resolve(s.inputDirectory, s.completedName)
  }

  function FailedDirectory(s: Settings): Path {
    Resolve(s.inputDirectory, s.failedName)
  }

  /** One element of the one-level walk of the input directory after the
      directory itself (which is never a regular file): an entry's name, or
      an I/O failure of the walk. The order is the filesystem's. */
  datatype Listed = Entry(name: string) | WalkFailure

  /** The glob `PathMatcher`. */
  type Matcher = Path -> bool

  /** Charset detection plus CSV binding of one file: `None` when either
      throws. */
  type Parser = Content -> Option<seq<Record>>

  datatype ScanError = SetupFailed(cause: IoError) | WalkFailed | QuarantineFailed(cause: IoError)

  /** The filesystem after the call, and what the call returned or threw.
      Moves already made stay made when the call throws. */
  datatype Outcome = Outcome(fs: Fs, result: Result<seq<Record>, ScanError>)

  datatype Processed = Processed(fs: Fs, records: seq<Record>)

  /** The entry is a regular file the matcher accepts: the stream filter. */
  predicate Selected(fs: Fs, s: Settings, matches: Matcher, name: string) {
    IsRegularFile(fs, InputPath(s, name)) && matches(InputPath(s, name))
  }

  /** Moves a file that could not be processed to the failed directory under
      the same name; its records are dropped. */
  function Quarantine(fs: Fs, s: Settings, name: string): (r: Result<Processed, IoError>)
    ensures r.Ok? <==> Move(fs, InputPath(s, name), Resolve(FailedDirectory(s), name)).Ok?
    ensures r.Ok? ==> r.value.records == []
    ensures r.Ok? ==> r.value.fs == Move(fs, InputPath(s, name), Resolve(FailedDirectory(s), name)).value.fs
  {
    match Move(fs, InputPath(s, name), Resolve(FailedDirectory(s), name))
    case Ok(moved) => Ok(Processed(moved.fs, []))
    case Err(e) => Err(e)
  }

  /** One selected file: parse it and move it to the completed directory; if
      the parse or that move throws, quarantine it instead, dropping the
      records it parsed to. */
  function ProcessFile(fs: Fs, s: Settings, parse: Parser, name: string): (r: Result<Processed, IoError>)
    requires IsRegularFile(fs, InputPath(s, name))
    ensures var file := fs[InputPath(s, name)];
      var toCompleted := Resolve(CompletedDirectory(s), name);
      var toFailed := Resolve(FailedDirectory(s), name);
      r.Ok? ==>
        || (toCompleted in r.value.fs && r.value.fs[toCompleted] == file
            && parse(file.content) == Some(r.value.records))
        || (toFailed in r.value.fs && r.value.fs[toFailed] == file && r.value.records == [])
    ensures var content := fs[InputPath(s, name)].content;
      var toCompleted := Resolve(CompletedDirectory(s), name);
      parse(content).Some? && CanMove(fs, InputPath(s, name), toCompleted) ==>
        r == Ok(Processed(Move(fs, InputPath(s, name), toCompleted).value.fs, parse(content).value))
    ensures var content := fs[InputPath(s, name)].content;
      !(parse(content).Some? && CanMove(fs, InputPath(s, name), Resolve(CompletedDirectory(s), name))) ==>
        r == Quarantine(fs, s, name)
    ensures r.Ok? && r.value.records != [] ==>
      parse(fs[InputPath(s, name)].content) == Some(r.value.records)
    ensures r.Ok? ==>
      r.value.fs - {InputPath(s, name), Resolve(CompletedDirectory(s), name), Resolve(FailedDirectory(s), name)}
      == fs - {InputPath(s, name), Resolve(CompletedDirectory(s), name), Resolve(FailedDirectory(s), name)}
    ensures r.Ok? ==> InputPath(s, name) !in r.value.fs
  {
    var source := InputPath(s, name);
    var toCompleted := Resolve(CompletedDirectory(s), name);
    var toFailed := Resolve(FailedDirectory(s), name);
    assert source != toCompleted && source != toFailed;
    match parse(fs[source].content)
    case Some(records) =>
      (match Move(fs, source, toCompleted)
       case Ok(moved) =>
         assert moved.fs - {source, toCompleted, toFailed} == (moved.fs - {source, toCompleted}) - {toFailed};
         assert fs - {source, toCompleted, toFailed} == (fs - {source, toCompleted}) - {toFailed};
         Ok(Processed(moved.fs, records))
       case Err(_) => QuarantineFrame(fs, s, name); Quarantine(fs, s, name))
    case None => QuarantineFrame(fs, s, name); Quarantine(fs, s, name)
  }

  lemma QuarantineFrame(fs: Fs, s: Settings, name: string)
    ensures var r := Quarantine(fs, s, name);
      var paths := {InputPath(s, name), Resolve(CompletedDirectory(s), name), Resolve(FailedDirectory(s), name)};
      r.Ok? ==> r.value.fs - paths == fs - paths && InputPath(s, name) !in r.value.fs
  {
    var source := InputPath(s, name);
    var toFailed := Resolve(FailedDirectory(s), name);
    var paths := {source, Resolve(CompletedDirectory(s), name), toFailed};
    var r := Quarantine(fs, s, name);
    if r.Ok? {
      var moved := Move(fs, source, toFailed).value.fs;
      assert moved - paths == (moved - {source, toFailed}) - paths;
      assert fs - paths == (fs - {source, toFailed}) - paths;
    }
  }

  /** The paths an entry of the walk can affect: the entry itself and its
      namesakes in the completed and failed directories. */
  function Touched(s: Settings, walk: seq<Listed>): (t: set<Path>)
    ensures forall i :: 0 <= i < |walk| && walk[i].Entry? ==> InputPath(s, walk[i].name) in t
    decreases |walk|
  {
    if |walk| == 0 then {}
    else
      var rest := Touched(s, walk[1..]);
      match walk[0]
      case WalkFailure => rest
      case Entry(n) => {InputPath(s, n), Resolve(CompletedDirectory(s), n), Resolve(FailedDirectory(s), n)} + rest
  }

  /** The stream pipeline over the walk: each selected file is processed in
      walk order and its records appended; a walk failure or a failed
      quarantine move aborts the call. */
  function Scan(fs: Fs, s: Settings, walk: seq<Listed>, matches: Matcher, parse: Parser): (o: Outcome)
    ensures o.fs - Touched(s, walk) == fs - Touched(s, walk)
    ensures o.result.Ok? ==> WalkFailure !in walk
    ensures o.result.Ok? ==>
      forall i :: 0 <= i < |walk| && walk[i].Entry? ==> !Selected(o.fs, s, matches, walk[i].name)
    decreases |walk|
  {
    if |walk| == 0 then Outcome(fs, Ok([]))
    else match walk[0]
      case WalkFailure => Outcome(fs, Err(WalkFailed))
      case Entry(name) =>
        if !Selected(fs, s, matches, name) then
          var rest := Scan(fs, s, walk[1..], matches, parse);
          ScanFrame(fs, rest.fs, s, walk);
          ScanSettled(fs, rest, s, walk, matches);
          rest
        else match ProcessFile(fs, s, parse, name)
          case Err(e) => Outcome(fs, Err(QuarantineFailed(e)))
          case Ok(p) =>
            var rest := Scan(p.fs, s, walk[1..], matches, parse);
            ScanFrameAfter(fs, p.fs, rest.fs, s, walk);
            ScanSettled(p.fs, rest, s, walk, matches);
            Outcome(rest.fs, if rest.result.Ok? then Ok(p.records + rest.result.value) else rest.result)
  }

  lemma ScanFrame(fs: Fs, fs': Fs, s: Settings, walk: seq<Listed>)
    requires |walk| > 0
    requires fs' - Touched(s, walk[1..]) == fs - Touched(s, walk[1..])
    ensures fs' - Touched(s, walk) == fs - Touched(s, walk)
  {
    var t := Touched(s, walk);
    assert Touched(s, walk[1..]) <= t;
    assert fs' - t == (fs' - Touched(s, walk[1..])) - t;
    assert fs - t == (fs - Touched(s, walk[1..])) - t;
  }

  lemma ScanFrameAfter(fs: Fs, fs1: Fs, fs': Fs, s: Settings, walk: seq<Listed>)
    requires |walk| > 0 && walk[0].Entry?
    requires var n := walk[0].name;
      var paths := {InputPath(s, n), Resolve(CompletedDirectory(s), n), Resolve(FailedDirectory(s), n)};
      fs1 - paths == fs - paths
    requires fs' - Touched(s, walk[1..]) == fs1 - Touched(s, walk[1..])
    ensures fs' - Touched(s, walk) == fs - Touched(s, walk)
  {
    var n := walk[0].name;
    var paths := {InputPath(s, n), Resolve(CompletedDirectory(s), n), Resolve(FailedDirectory(s), n)};
    var t := Touched(s, walk);
    assert t == paths + Touched(s, walk[1..]);
    assert fs' - t == (fs' - Touched(s, walk[1..])) - t;
    assert fs1 - t == (fs1 - Touched(s, walk[1..])) - t;
    assert fs1 - t == (fs1 - paths) - t;
    assert fs - t == (fs - paths) - t;
  }

  /** A selected entry that the rest of the walk leaves alone stays settled:
      no move lands at depth one of the input directory. */
  lemma ScanSettled(fs: Fs, rest: Outcome, s: Settings, walk: seq<Listed>, matches: Matcher)
    requires |walk| > 0 && walk[0].Entry?
    requires !Selected(fs, s, matches, walk[0].name)
    requires rest.fs - Touched(s, walk[1..]) == fs - Touched(s, walk[1..])
    requires rest.result.Ok? ==>
      forall i :: 0 <= i < |walk[1..]| && walk[1..][i].Entry? ==> !Selected(rest.fs, s, matches, walk[1..][i].name)
    ensures rest.result.Ok? ==>
      forall i :: 0 <= i < |walk| && walk[i].Entry? ==> !Selected(rest.fs, s, matches, walk[i].name)
  {
    if rest.result.Ok? {
      var n := walk[0].name;
      var p := InputPath(s, n);
      if p in Touched(s, walk[1..]) {
        var j := TouchedAtDepthOne(s, walk[1..], n);
        assert walk[1..][j].Entry?;
      } else {
        assert p in fs <==> p in fs - Touched(s, walk[1..]);
        assert p in rest.fs <==> p in rest.fs - Touched(s, walk[1..]);
        if p in fs {
          assert (fs - Touched(s, walk[1..]))[p] == fs[p];
          assert (rest.fs - Touched(s, walk[1..]))[p] == rest.fs[p];
        }
      }
      forall i | 0 <= i < |walk| && walk[i].Entry?
        ensures !Selected(rest.fs, s, matches, walk[i].name)
      {
        if i > 0 {
          assert walk[i] == walk[1..][i - 1];
        }
      }
    }
  }

  /** The only touched path at depth one named `n` comes from an entry `n`. */
  lemma {:induction false} TouchedAtDepthOne(s: Settings, walk: seq<Listed>, n: string) returns (j: nat)
    requires InputPath(s, n) in Touched(s, walk)
    ensures j < |walk| && walk[j] == Entry(n)
    decreases |walk|
  {
    var p := InputPath(s, n);
    if walk[0].Entry? && p in {InputPath(s, walk[0].name), Resolve(CompletedDirectory(s), walk[0].name), Resolve(FailedDirectory(s), walk[0].name)} {
      assert |Resolve(CompletedDirectory(s), walk[0].name)| != |p|;
      assert |Resolve(FailedDirectory(s), walk[0].name)| != |p|;
      assert p[|s.inputDirectory|] == n;
      j := 0;
    } else {
      var k := TouchedAtDepthOne(s, walk[1..], n);
      j := k + 1;
    }
  }

  /** `getRecords`: the completed and failed directories are created inside
      the input directory before the walk (creating an existing one changes
      nothing), then the walk is scanned. */
  function GetRecords(fs: Fs, s: Settings, walk: seq<Listed>, matches: Matcher, parse: Parser): (o: Outcome)
    ensures o.result.Ok? ==> WalkFailure !in walk
    ensures o.result.Ok? ==>
      forall i :: 0 <= i < |walk| && walk[i].Entry? ==> !Selected(o.fs, s, matches, walk[i].name)
    ensures o.result.Ok? && Lists(fs, s, walk) ==> forall n :: !Selected(o.fs, s, matches, n)
  {
    match CreateDirectories(fs, CompletedDirectory(s))
    case Err(e) => Outcome(fs, Err(SetupFailed(e)))
    case Ok(fs1) =>
      match CreateDirectories(fs1, FailedDirectory(s))
      case Err(e) => Outcome(fs1, Err(SetupFailed(e)))
      case Ok(fs2) =>
        var o := Scan(fs2, s, walk, matches, parse);
        ScanEmptiesInput(fs2, o, s, walk, matches);
        assert Lists(fs, s, walk) ==> Lists(fs2, s, walk);
        o
  }

  /** The records a scan should return: those of every selected file that
      parses, concatenated in walk order. */
  function Expected(fs: Fs, s: Settings, walk: seq<Listed>, matches: Matcher, parse: Parser): seq<Record>
    decreases |walk|
  {
    if |walk| == 0 then []
    else
      var here :=
        if walk[0].Entry? && Selected(fs, s, matches, walk[0].name)
          && parse(fs[InputPath(s, walk[0].name)].content).Some?
        then parse(fs[InputPath(s, walk[0].name)].content).value
        else [];
      here + Expected(fs, s, walk[1..], matches, parse)
  }

  /** Where a selected file of the original filesystem `fs` must end up: in
      the completed directory if it parses, in the failed directory if not,
      under its own name and with its content, and gone from the input
      directory. */
  predicate Filed(fs: Fs, fs': Fs, s: Settings, matches: Matcher, parse: Parser, name: string) {
    Selected(fs, s, matches, name) ==>
      var file := fs[InputPath(s, name)];
      var target := if parse(file.content).Some? then CompletedDirectory(s) else FailedDirectory(s);
      && InputPath(s, name) !in fs'
      && Resolve(target, name) in fs'
      && fs'[Resolve(target, name)] == file
  }

  /** A walk every move of the scan can complete: it lists distinct names
      without failing, and no listed name is taken in the completed or
      failed directory by a directory with entries. */
  predicate Orderly(fs: Fs, s: Settings, walk: seq<Listed>) {
    && WalkFailure !in walk
    && (forall i, j :: 0 <= i < j < |walk| ==> walk[i] != walk[j])
    && (forall i :: 0 <= i < |walk| && walk[i].Entry? ==>
          && !HasEntries(fs, Resolve(CompletedDirectory(s), walk[i].name))
          && !HasEntries(fs, Resolve(FailedDirectory(s), walk[i].name)))
  }

  /** The walk lists every regular file directly inside the input
      directory, as the one-level `Files.walk` does. */
  ghost predicate Lists(fs: Fs, s: Settings, walk: seq<Listed>) {
    forall n :: IsRegularFile(fs, InputPath(s, n)) ==> Entry(n) in walk
  }

  /** A directory the scan can work in: the completed and failed directories
      exist and the walk is orderly. */
  predicate Clean(fs: Fs, s: Settings, walk: seq<Listed>) {
    && IsDirectory(fs, CompletedDirectory(s))
    && IsDirectory(fs, FailedDirectory(s))
    && Orderly(fs, s, walk)
  }

  /** `Files.createDirectories(d)` succeeds: no ancestor of `d`, nor `d`
      itself, is a regular file. */
  predicate Creatable(fs: Fs, d: Path) {
    forall i :: 1 <= i <= |d| ==> !IsRegularFile(fs, d[..i])
  }

  /** The paths processing the entry `name` may change. */
  function Own(s: Settings, name: string): set<Path> {
    {InputPath(s, name), Resolve(CompletedDirectory(s), name), Resolve(FailedDirectory(s), name)}
  }

  /** In a clean directory every move the scan makes succeeds. */
  lemma MoveSucceeds(fs: Fs, s: Settings, name: string, dir: Path, x: string)
    requires dir == Resolve(s.inputDirectory, x)
    requires IsDirectory(fs, dir) && !HasEntries(fs, Resolve(dir, name))
    requires IsRegularFile(fs, InputPath(s, name))
    ensures Move(fs, InputPath(s, name), Resolve(dir, name)).Ok?
  {
  }

  /** Processing one selected entry of a clean directory files it correctly,
      yields its parsed records, and leaves the rest of the walk clean. */
  lemma ProcessClean(fs: Fs, s: Settings, walk: seq<Listed>, matches: Matcher, parse: Parser)
    requires Clean(fs, s, walk) && |walk| > 0 && walk[0].Entry?
    requires Selected(fs, s, matches, walk[0].name)
    ensures var name := walk[0].name;
      var r := ProcessFile(fs, s, parse, name);
      var content := fs[InputPath(s, name)].content;
      && r.Ok?
      && r.value.records == (if parse(content).Some? then parse(content).value else [])
      && Filed(fs, r.value.fs, s, matches, parse, name)
      && r.value.fs - Own(s, name) == fs - Own(s, name)
  {
    var name := walk[0].name;
    var source := InputPath(s, name);
    MoveSucceeds(fs, s, name, CompletedDirectory(s), s.completedName);
    MoveSucceeds(fs, s, name, FailedDirectory(s), s.failedName);
    QuarantineFrame(fs, s, name);
  }

  /** The state after processing the first entry is clean for the rest. */
  lemma StepKeepsClean(fs: Fs, fs1: Fs, s: Settings, walk: seq<Listed>)
    requires Clean(fs, s, walk) && |walk| > 0 && walk[0].Entry?
    requires IsRegularFile(fs, InputPath(s, walk[0].name))
    requires fs1 - Own(s, walk[0].name) == fs - Own(s, walk[0].name)
    ensures Clean(fs1, s, walk[1..])
  {
    var n := walk[0].name;
    var own := Own(s, n);
    var c := CompletedDirectory(s);
    var f := FailedDirectory(s);
    assert c !in own && f !in own;
    assert c != [] && f != [];
    assert c in fs - own && f in fs - own;
    assert (fs - own)[c] == fs[c] && (fs1 - own)[c] == fs1[c];
    assert (fs - own)[f] == fs[f] && (fs1 - own)[f] == fs1[f];
    var rest := walk[1..];
    forall i | 0 <= i < |rest| && rest[i].Entry?
      ensures !HasEntries(fs1, Resolve(c, rest[i].name)) && !HasEntries(fs1, Resolve(f, rest[i].name))
    {
      assert rest[i] == walk[i + 1];
      var m := rest[i].name;
      NoEntriesOutsideOwn(fs, fs1, own, Resolve(c, m));
      NoEntriesOutsideOwn(fs, fs1, own, Resolve(f, m));
    }
    forall i, j | 0 <= i < j < |rest|
      ensures rest[i] != rest[j]
    {
      assert rest[i] == walk[i + 1] && rest[j] == walk[j + 1];
    }
  }

  /** A directory two levels below the input directory gains no entries
      from changes confined to one entry's own paths. */
  lemma NoEntriesOutsideOwn(fs: Fs, fs1: Fs, own: set<Path>, d: Path)
    requires forall q :: q in own ==> |q| <= |d|
    requires fs1 - own == fs - own
    ensures HasEntries(fs1, d) ==> HasEntries(fs, d)
  {
    forall q | q in fs1 && Below(d, q)
      ensures q in fs
    {
      KeptOutsideOwn(fs, fs1, own, q);
    }
  }

  lemma KeptOutsideOwn(fs: Fs, fs1: Fs, own: set<Path>, q: Path)
    requires fs1 - own == fs - own
    requires q in fs1 && q !in own
    ensures q in fs
  {
    assert q in fs1 - own;
  }

  lemma CleanTail(fs: Fs, s: Settings, walk: seq<Listed>)
    requires Clean(fs, s, walk) && |walk| > 0
    ensures Clean(fs, s, walk[1..])
  {
    var rest := walk[1..];
    forall i | 0 <= i < |rest|
      ensures rest[i] == walk[i + 1]
    {
    }
  }

  /** Two filesystems with the same regular files at every listed input
      path expect the same records. */
  lemma {:induction false} ExpectedFrame(fs: Fs, fs1: Fs, s: Settings, walk: seq<Listed>, matches: Matcher, parse: Parser)
    requires forall i :: 0 <= i < |walk| && walk[i].Entry? ==>
      var p := InputPath(s, walk[i].name);
      (IsRegularFile(fs, p) <==> IsRegularFile(fs1, p)) && (IsRegularFile(fs, p) ==> fs[p] == fs1[p])
    ensures Expected(fs, s, walk, matches, parse) == Expected(fs1, s, walk, matches, parse)
    decreases |walk|
  {
    if |walk| > 0 {
      forall i | 0 <= i < |walk[1..]| && walk[1..][i].Entry?
        ensures var p := InputPath(s, walk[1..][i].name);
          (IsRegularFile(fs, p) <==> IsRegularFile(fs1, p)) && (IsRegularFile(fs, p) ==> fs[p] == fs1[p])
      {
        assert walk[1..][i] == walk[i + 1];
      }
      ExpectedFrame(fs, fs1, s, walk[1..], matches, parse);
    }
  }

  /** One step of the scan on a clean directory: the first entry is filed
      and contributes its records, and the rest of the walk runs on a state
      that is still clean. */
  lemma StepClean(fs: Fs, s: Settings, walk: seq<Listed>, matches: Matcher, parse: Parser)
    returns (fs1: Fs, here: seq<Record>)
    requires Clean(fs, s, walk) && |walk| > 0
    ensures walk[0].Entry?
    ensures Clean(fs1, s, walk[1..])
    ensures fs1 - Own(s, walk[0].name) == fs - Own(s, walk[0].name)
    ensures Filed(fs, fs1, s, matches, parse, walk[0].name)
    ensures here + Expected(fs, s, walk[1..], matches, parse) == Expected(fs, s, walk, matches, parse)
    ensures var r := Scan(fs1, s, walk[1..], matches, parse);
      Scan(fs, s, walk, matches, parse)
        == Outcome(r.fs, if r.result.Ok? then Ok(here + r.result.value) else r.result)
  {
    assert walk[0] in walk;
    var n := walk[0].name;
    if Selected(fs, s, matches, n) {
      fs1, here := SelectedStep(fs, s, walk, matches, parse);
    } else {
      fs1, here := SkippedStep(fs, s, walk, matches, parse);
    }
  }

  lemma SkippedStep(fs: Fs, s: Settings, walk: seq<Listed>, matches: Matcher, parse: Parser)
    returns (fs1: Fs, here: seq<Record>)
    requires Clean(fs, s, walk) && |walk| > 0 && walk[0].Entry?
    requires !Selected(fs, s, matches, walk[0].name)
    ensures Clean(fs1, s, walk[1..])
    ensures fs1 == fs && here == []
    ensures Filed(fs, fs1, s, matches, parse, walk[0].name)
    ensures here + Expected(fs, s, walk[1..], matches, parse) == Expected(fs, s, walk, matches, parse)
    ensures var r := Scan(fs1, s, walk[1..], matches, parse);
      Scan(fs, s, walk, matches, parse)
        == Outcome(r.fs, if r.result.Ok? then Ok(here + r.result.value) else r.result)
  {
    fs1 := fs;
    here := [];
    CleanTail(fs, s, walk);
    var r := Scan(fs, s, walk[1..], matches, parse);
    if r.result.Ok? {
      assert here + r.result.value == r.result.value;
    }
  }

  lemma SelectedStep(fs: Fs, s: Settings, walk: seq<Listed>, matches: Matcher, parse: Parser)
    returns (fs1: Fs, here: seq<Record>)
    requires Clean(fs, s, walk) && |walk| > 0 && walk[0].Entry?
    requires Selected(fs, s, matches, walk[0].name)
    ensures Clean(fs1, s, walk[1..])
    ensures fs1 - Own(s, walk[0].name) == fs - Own(s, walk[0].name)
    ensures Filed(fs, fs1, s, matches, parse, walk[0].name)
    ensures here + Expected(fs, s, walk[1..], matches, parse) == Expected(fs, s, walk, matches, parse)
    ensures var r := Scan(fs1, s, walk[1..], matches, parse);
      Scan(fs, s, walk, matches, parse)
        == Outcome(r.fs, if r.result.Ok? then Ok(here + r.result.value) else r.result)
  {
    var n := walk[0].name;
    ProcessClean(fs, s, walk, matches, parse);
    var p := ProcessFile(fs, s, parse, n).value;
    fs1 := p.fs;
    here := p.records;
    StepKeepsClean(fs, fs1, s, walk);
  }

  /** The rest of the walk names input paths the first entry does not own. */
  lemma RestAvoidsFirst(s: Settings, walk: seq<Listed>)
    requires |walk| > 0 && walk[0].Entry?
    requires WalkFailure !in walk
    requires forall i, j :: 0 <= i < j < |walk| ==> walk[i] != walk[j]
    ensures forall i :: 0 <= i < |walk[1..]| ==>
      walk[1..][i].Entry? && walk[1..][i].name != walk[0].name
    ensures forall i :: 0 <= i < |walk[1..]| ==> InputPath(s, walk[1..][i].name) !in Own(s, walk[0].name)
  {
    var n := walk[0].name;
    forall i | 0 <= i < |walk[1..]|
      ensures walk[1..][i].Entry? && walk[1..][i].name != n
      ensures InputPath(s, walk[1..][i].name) !in Own(s, n)
    {
      assert walk[1..][i] == walk[i + 1];
      assert walk[i + 1] in walk;
      assert walk[0] != walk[i + 1];
      var m := walk[i + 1].name;
      assert InputPath(s, m)[|s.inputDirectory|] == m;
      assert InputPath(s, n)[|s.inputDirectory|] == n;
    }
  }

  /** Agreement outside `own` gives agreement on every listed input path
      outside `own`. */
  lemma InputsAgree(fs: Fs, fs1: Fs, own: set<Path>, s: Settings, walk: seq<Listed>)
    requires fs1 - own == fs - own
    requires forall i :: 0 <= i < |walk| ==> walk[i].Entry? && InputPath(s, walk[i].name) !in own
    ensures forall i :: 0 <= i < |walk| && walk[i].Entry? ==>
      var p := InputPath(s, walk[i].name);
      (p in fs <==> p in fs1) && (p in fs ==> fs[p] == fs1[p])
  {
    forall i | 0 <= i < |walk| && walk[i].Entry?
      ensures var p := InputPath(s, walk[i].name);
        (p in fs <==> p in fs1) && (p in fs ==> fs[p] == fs1[p])
    {
      var p := InputPath(s, walk[i].name);
      assert p in fs <==> p in fs - own;
      assert p in fs1 <==> p in fs1 - own;
      if p in fs {
        assert (fs - own)[p] == fs[p] && (fs1 - own)[p] == fs1[p];
      }
    }
  }

  /** The first entry stays filed while the rest of the walk runs. */
  lemma FiledSurvives(fs: Fs, fs1: Fs, fs': Fs, s: Settings, walk: seq<Listed>, matches: Matcher, parse: Parser)
    requires |walk| > 0 && walk[0].Entry?
    requires forall i :: 0 <= i < |walk[1..]| ==> walk[1..][i].Entry? && walk[1..][i].name != walk[0].name
    requires Filed(fs, fs1, s, matches, parse, walk[0].name)
    requires fs' - Touched(s, walk[1..]) == fs1 - Touched(s, walk[1..])
    ensures Filed(fs, fs', s, matches, parse, walk[0].name)
  {
    var n := walk[0].name;
    if Selected(fs, s, matches, n) {
      var file := fs[InputPath(s, n)];
      var target := if parse(file.content).Some? then CompletedDirectory(s) else FailedDirectory(s);
      var t := Touched(s, walk[1..]);
      NotTouched(s, walk[1..], n);
      assert Resolve(target, n) in fs1 - t && (fs1 - t)[Resolve(target, n)] == file;
      assert InputPath(s, n) !in fs1 - t;
      assert Resolve(target, n) in fs' - t;
      assert (fs' - t)[Resolve(target, n)] == file;
    }
  }

  /** On a clean directory the scan returns exactly the records of the files
      that parse, in walk order, and files every selected entry: parsed ones
      in the completed directory, the others in the failed directory. */
  lemma {:induction false} ScanClean(fs: Fs, s: Settings, walk: seq<Listed>, matches: Matcher, parse: Parser)
    requires Clean(fs, s, walk)
    ensures Scan(fs, s, walk, matches, parse).result == Ok(Expected(fs, s, walk, matches, parse))
    ensures forall i :: 0 <= i < |walk| ==>
      Filed(fs, Scan(fs, s, walk, matches, parse).fs, s, matches, parse, walk[i].name)
    ensures Lists(fs, s, walk) ==>
      forall n :: !Selected(Scan(fs, s, walk, matches, parse).fs, s, matches, n)
    decreases |walk|
  {
    if |walk| > 0 {
      var rest := walk[1..];
      var fs1, here := StepClean(fs, s, walk, matches, parse);
      ScanClean(fs1, s, rest, matches, parse);
      RestAvoidsFirst(s, walk);
      InputsAgree(fs, fs1, Own(s, walk[0].name), s, rest);
      ExpectedFrame(fs, fs1, s, rest, matches, parse);
      var o := Scan(fs, s, walk, matches, parse);
      FiledSurvives(fs, fs1, o.fs, s, walk, matches, parse);
      forall i | 0 <= i < |walk|
        ensures Filed(fs, o.fs, s, matches, parse, walk[i].name)
      {
        if i > 0 {
          assert walk[i] == rest[i - 1];
          assert Filed(fs1, o.fs, s, matches, parse, rest[i - 1].name);
        }
      }
    }
    ScanEmptiesInput(fs, Scan(fs, s, walk, matches, parse), s, walk, matches);
  }

  /** A scan that ends normally over a walk listing the whole input
      directory leaves no selected file there: a listed file was filed, and
      an unlisted path is neither touched nor, by the listing, a file. */
  lemma ScanEmptiesInput(fs: Fs, o: Outcome, s: Settings, walk: seq<Listed>, matches: Matcher)
    requires o.fs - Touched(s, walk) == fs - Touched(s, walk)
    requires o.result.Ok? ==>
      forall i :: 0 <= i < |walk| && walk[i].Entry? ==> !Selected(o.fs, s, matches, walk[i].name)
    ensures Lists(fs, s, walk) && o.result.Ok? ==> forall n :: !Selected(o.fs, s, matches, n)
  {
    if Lists(fs, s, walk) && o.result.Ok? {
      ScanEmptiesListed(fs, o, s, walk, matches);
    }
  }

  lemma ScanEmptiesListed(fs: Fs, o: Outcome, s: Settings, walk: seq<Listed>, matches: Matcher)
    requires Lists(fs, s, walk) && o.result.Ok?
    requires o.fs - Touched(s, walk) == fs - Touched(s, walk)
    requires forall i :: 0 <= i < |walk| && walk[i].Entry? ==> !Selected(o.fs, s, matches, walk[i].name)
    ensures forall n :: !Selected(o.fs, s, matches, n)
  {
    forall n
      ensures !Selected(o.fs, s, matches, n)
    {
      var p := InputPath(s, n);
      forall j | 0 <= j < |walk| && walk[j] == Entry(n)
        ensures p in Touched(s, walk)
      {
      }
      if p in Touched(s, walk) {
        var j := TouchedAtDepthOne(s, walk, n);
      } else if p in o.fs {
        assert p in o.fs - Touched(s, walk);
        assert (o.fs - Touched(s, walk))[p] == o.fs[p];
        assert p in fs && fs[p] == o.fs[p];
      }
    }
  }

  /** Paths owned by an entry are not touched by a walk that does not list it. */
  lemma {:induction false} NotTouched(s: Settings, walk: seq<Listed>, n: string)
    requires forall i :: 0 <= i < |walk| ==> walk[i].Entry? && walk[i].name != n
    ensures InputPath(s, n) !in Touched(s, walk)
    ensures Resolve(CompletedDirectory(s), n) !in Touched(s, walk)
    ensures Resolve(FailedDirectory(s), n) !in Touched(s, walk)
    decreases |walk|
  {
    if |walk| > 0 {
      var m := walk[0].name;
      var inputLength := |s.inputDirectory|;
      assert InputPath(s, n)[inputLength] == n && InputPath(s, m)[inputLength] == m;
      assert Resolve(CompletedDirectory(s), n)[inputLength + 1] == n;
      assert Resolve(CompletedDirectory(s), m)[inputLength + 1] == m;
      assert Resolve(FailedDirectory(s), n)[inputLength + 1] == n;
      assert Resolve(FailedDirectory(s), m)[inputLength + 1] == m;
      forall i | 0 <= i < |walk[1..]|
        ensures walk[1..][i].Entry? && walk[1..][i].name != n
      {
        assert walk[1..][i] == walk[i + 1];
      }
      NotTouched(s, walk[1..], n);
    }
  }

  /** The setup of `getRecords` on a directory where both directories can
      be created and the walk is orderly leaves a clean directory with the
      same regular files: only missing directories are added. */
  lemma SetupClean(fs: Fs, s: Settings, walk: seq<Listed>) returns (fs2: Fs)
    requires Creatable(fs, CompletedDirectory(s)) && Creatable(fs, FailedDirectory(s))
    requires Orderly(fs, s, walk)
    ensures CreateDirectories(fs, CompletedDirectory(s)).Ok?
    ensures CreateDirectories(CreateDirectories(fs, CompletedDirectory(s)).value, FailedDirectory(s)).Ok?
    ensures fs2 == CreateDirectories(CreateDirectories(fs, CompletedDirectory(s)).value, FailedDirectory(s)).value
    ensures Clean(fs2, s, walk)
    ensures forall p :: IsRegularFile(fs2, p) <==> IsRegularFile(fs, p)
    ensures forall p :: IsRegularFile(fs, p) ==> fs2[p] == fs[p]
  {
    var c := CompletedDirectory(s);
    var f := FailedDirectory(s);
    var fs1 := CreateDirectories(fs, c).value;
    assert Creatable(fs1, f) by {
      forall i | 1 <= i <= |f|
        ensures !IsRegularFile(fs1, f[..i])
      {
        if f[..i] in fs1 && f[..i] in fs {
          assert fs1[f[..i]] == fs[f[..i]];
        }
      }
    }
    fs2 := CreateDirectories(fs1, f).value;
    assert IsDirectory(fs1, c) by {
      assert c[..|c|] == c;
    }
    assert IsDirectory(fs2, f) by {
      assert f[..|f|] == f;
    }
    var added := fs2.Keys - fs.Keys;
    assert fs2 - added == fs - added;
    forall q | q in added
      ensures |q| <= |s.inputDirectory| + 1
    {
      if q in fs1 {
        assert IsPrefix(q, c);
      } else {
        assert IsPrefix(q, f);
      }
    }
    forall i | 0 <= i < |walk| && walk[i].Entry?
      ensures !HasEntries(fs2, Resolve(c, walk[i].name)) && !HasEntries(fs2, Resolve(f, walk[i].name))
    {
      NoEntriesOutsideOwn(fs, fs2, added, Resolve(c, walk[i].name));
      NoEntriesOutsideOwn(fs, fs2, added, Resolve(f, walk[i].name));
    }
  }

  /** `getRecords` on a directory where the completed and failed
      directories can be created (or already exist) and the walk is
      orderly: N listed files of which M parse leave M files in the
      completed directory and N - M in the failed one, and the call returns
      exactly the records of the M files, in walk order. */
  lemma GetRecordsClean(fs: Fs, s: Settings, walk: seq<Listed>, matches: Matcher, parse: Parser)
    requires Creatable(fs, CompletedDirectory(s)) && Creatable(fs, FailedDirectory(s))
    requires Orderly(fs, s, walk)
    ensures GetRecords(fs, s, walk, matches, parse).result == Ok(Expected(fs, s, walk, matches, parse))
    ensures forall i :: 0 <= i < |walk| ==>
      Filed(fs, GetRecords(fs, s, walk, matches, parse).fs, s, matches, parse, walk[i].name)
    ensures Lists(fs, s, walk) ==>
      forall n :: !Selected(GetRecords(fs, s, walk, matches, parse).fs, s, matches, n)
  {
    var fs2 := SetupClean(fs, s, walk);
    assert Lists(fs, s, walk) ==> Lists(fs2, s, walk);
    ScanClean(fs2, s, walk, matches, parse);
    ExpectedFrame(fs, fs2, s, walk, matches, parse);
    var o := GetRecords(fs, s, walk, matches, parse);
    assert o == Scan(fs2, s, walk, matches, parse);
    forall i | 0 <= i < |walk|
      ensures Filed(fs, o.fs, s, matches, parse, walk[i].name)
    {
      assert Filed(fs2, o.fs, s, matches, parse, walk[i].name);
    }
  }
}

=== FILE: cross_enrollment.dfy ===
/** The cross-enrollment record and the binding of a partner CSV file's
    columns onto it. */
module CrossEnrollment {
  import opened Wrappers

  /** A Java `String` field: `None` is `null`. */
  type Text = Option<string>

  /** The four identifiers of one cross-enrollment, in the order the
      four-argument constructor takes them. */
  datatype Record = Record(
    canvasRootAccount: Text,
    homeCollegeId: Text,
    homeCollegeLoginId: Text,
    teachingCollegeId: Text)

  function SetCanvasRootAccount(r: Record, v: Text): (r': Record)
    ensures r'.canvasRootAccount == v
    ensures r'.homeCollegeId == r.homeCollegeId
    ensures r'.homeCollegeLoginId == r.homeCollegeLoginId
    ensures r'.teachingCollegeId == r.teachingCollegeId
  {
    r.(canvasRootAccount := v)
  }

  function SetHomeCollegeId(r: Record, v: Text): (r': Record)
    ensures r'.homeCollegeId == v
    ensures r'.canvasRootAccount == r.canvasRootAccount
    ensures r'.homeCollegeLoginId == r.homeCollegeLoginId
    ensures r'.teachingCollegeId == r.teachingCollegeId
  {
    r.(homeCollegeId := v)
  }

  function SetHomeCollegeLoginId(r: Record, v: Text): (r': Record)
    ensures r'.homeCollegeLoginId == v
    ensures r'.canvasRootAccount == r.canvasRootAccount
    ensures r'.homeCollegeId == r.homeCollegeId
    ensures r'.teachingCollegeId == r.teachingCollegeId
  {
    r.(homeCollegeLoginId := v)
  }

  function SetTeachingCollegeId(r: Record, v: Text): (r': Record)
    ensures r'.teachingCollegeId == v
    ensures r'.canvasRootAccount == r.canvasRootAccount
    ensures r'.homeCollegeId == r.homeCollegeId
    ensures r'.homeCollegeLoginId == r.homeCollegeLoginId
  {
    r.(teachingCollegeId := v)
  }

  // Input CSV column names bound to the record's fields; all four are required.
  const RootAccountColumn := "canvasRootAccount"
  const HomeIdColumn := "homeSISUserId"
  const LoginIdColumn := "canvasLoginId"
  const TeachingIdColumn := "studentid"

  /** Position of the first header cell equal to `name`. */
  function IndexOf(header: seq<string>, name: string): (r: Option<nat>)
    ensures r.None? <==> name !in header
    ensures r.Some? ==> r.value < |header| && header[r.value] == name
    ensures r.Some? ==> forall j :: 0 <= j < r.value ==> header[j] != name
  {
    if |header| == 0 then None
    else if header[0] == name then Some(0)
    else match IndexOf(header[1..], name)
      case None => None
      case Some(i) => Some(i + 1)
  }

  /** The header names every required column. */
  predicate HeaderComplete(header: seq<string>) {
    && RootAccountColumn in header
    && HomeIdColumn in header
    && LoginIdColumn in header
    && TeachingIdColumn in header
  }

  /** `Character.isWhitespace`: the Unicode space separators other than the
      non-breaking ones, and the ASCII controls for tab, line feed, vertical
      tab, form feed, carriage return and the four information separators. */
  predicate IsWhitespace(c: char) {
    var n := c as int;
    || n == 0x20 || 0x09 <= n <= 0x0D || 0x1C <= n <= 0x1F
    || n == 0x1680 || 0x2000 <= n <= 0x2006 || 0x2008 <= n <= 0x200A
    || n == 0x2028 || n == 0x2029 || n == 0x205F || n == 0x3000
  }

  /** `StringUtils.isBlank`: empty or whitespace only. */
  predicate Blank(cell: string) {
    forall i :: 0 <= i < |cell| ==> IsWhitespace(cell[i])
  }

  /** The value of a required column in one data row: present and not
      blank. The cell is kept as it is, surrounding whitespace included. */
  function RequiredCell(header: seq<string>, row: seq<string>, name: string): (r: Option<string>)
    requires |row| == |header|
    ensures r.Some? <==> exists i :: 0 <= i < |header| && header[i] == name && IndexOf(header, name) == Some(i) && !Blank(row[i])
    ensures r.Some? ==> !Blank(r.value) && r.value == row[IndexOf(header, name).value]
  {
    match IndexOf(header, name)
    case None => None
    case Some(i) => if Blank(row[i]) then None else Some(row[i])
  }

  /** Binds one data row by header name. A row whose length differs from the
      header's, or with a blank required cell, is rejected; otherwise every
      field is the cell under the column named for it. */
  function BindRow(header: seq<string>, row: seq<string>): (r: Option<Record>)
    ensures r.Some? ==> |row| == |header| && HeaderComplete(header)
    ensures r.Some? ==>
      && r.value.canvasRootAccount == Some(row[IndexOf(header, RootAccountColumn).value])
      && r.value.homeCollegeId == Some(row[IndexOf(header, HomeIdColumn).value])
      && r.value.homeCollegeLoginId == Some(row[IndexOf(header, LoginIdColumn).value])
      && r.value.teachingCollegeId == Some(row[IndexOf(header, TeachingIdColumn).value])
    ensures r.Some? ==> Filled(r.value)
    ensures |row| == |header| && HeaderComplete(header)
      && !Blank(row[IndexOf(header, RootAccountColumn).value])
      && !Blank(row[IndexOf(header, HomeIdColumn).value])
      && !Blank(row[IndexOf(header, LoginIdColumn).value])
      && !Blank(row[IndexOf(header, TeachingIdColumn).value])
      ==> r.Some?
  {
    if |row| != |header| then None
    else
      var root := RequiredCell(header, row, RootAccountColumn);
      var home := RequiredCell(header, row, HomeIdColumn);
      var login := RequiredCell(header, row, LoginIdColumn);
      var teaching := RequiredCell(header, row, TeachingIdColumn);
      if root.None? || home.None? || login.None? || teaching.None? then None
      else Some(Record(root, home, login, teaching))
  }

  /** Binds a whole file: the header must name every required column, and a
      single bad row rejects the file (no partial result). */
  function BindRows(header: seq<string>, rows: seq<seq<string>>): (r: Option<seq<Record>>)
    ensures r.Some? <==> HeaderComplete(header) && forall i :: 0 <= i < |rows| ==> BindRow(header, rows[i]).Some?
    ensures r.Some? ==> |r.value| == |rows|
    ensures r.Some? ==> forall i :: 0 <= i < |rows| ==> BindRow(header, rows[i]) == Some(r.value[i])
    decreases |rows|
  {
    if !HeaderComplete(header) then None
    else if |rows| == 0 then Some([])
    else match (BindRow(header, rows[0]), BindRows(header, rows[1..]))
      case (Some(first), Some(rest)) => Some([first] + rest)
      case _ => None
  }

  /** Every field holds a value that is not blank: what a bound row
      yields. */
  predicate Filled(r: Record) {
    && r.canvasRootAccount.Some? && !Blank(r.canvasRootAccount.value)
    && r.homeCollegeId.Some? && !Blank(r.homeCollegeId.value)
    && r.homeCollegeLoginId.Some? && !Blank(r.homeCollegeLoginId.value)
    && r.teachingCollegeId.Some? && !Blank(r.teachingCollegeId.value)
  }

  /** A partner file as a table of cells, first row the header. An empty file
      has no header and is rejected; otherwise the file parses exactly when
      the header is complete and every data row binds, and the records are
      the bound rows in order. */
  function ParseLoginsFile(content: seq<seq<string>>): (r: Option<seq<Record>>)
    ensures r.Some? <==>
      |content| > 0 && HeaderComplete(content[0])
      && forall i :: 1 <= i < |content| ==> BindRow(content[0], content[i]).Some?
    ensures r.Some? ==> |r.value| == |content| - 1
    ensures r.Some? ==> forall i :: 0 <= i < |r.value| ==> BindRow(content[0], content[i + 1]) == Some(r.value[i])
  {
    if |content| == 0 then None
    else
      var rows := content[1..];
      assert forall i :: 0 <= i < |rows| ==> rows[i] == content[i + 1];
      BindRows(content[0], rows)
  }

  /** The header of a partner file with the four required columns in
      record-field order. */
  const PartnerHeader: seq<string> := [RootAccountColumn, HomeIdColumn, LoginIdColumn, TeachingIdColumn]

  /** A record as a data row under `PartnerHeader`. */
  function PartnerRow(r: Record): seq<string>
    requires Filled(r)
  {
    [r.canvasRootAccount.value, r.homeCollegeId.value, r.homeCollegeLoginId.value, r.teachingCollegeId.value]
  }

  /** The partner file that lists `records` under `PartnerHeader`. */
  function PartnerFile(records: seq<Record>): seq<seq<string>>
    requires forall i :: 0 <= i < |records| ==> Filled(records[i])
  {
    [PartnerHeader] + seq(|records|, i requires 0 <= i < |records| => PartnerRow(records[i]))
  }

  /** Binding a partner file recovers the records it was written from: every
      record with non-blank fields survives the trip through a partner CSV. */
  lemma PartnerFileRoundTrip(records: seq<Record>)
    requires forall i :: 0 <= i < |records| ==> Filled(records[i])
    ensures ParseLoginsFile(PartnerFile(records)) == Some(records)
  {
    var content := PartnerFile(records);
    var h := PartnerHeader;
    assert IndexOf(h, RootAccountColumn) == Some(0);
    assert IndexOf(h, HomeIdColumn) == Some(1);
    assert IndexOf(h, LoginIdColumn) == Some(2);
    assert IndexOf(h, TeachingIdColumn) == Some(3);
    forall i | 1 <= i < |content|
      ensures BindRow(h, content[i]) == Some(records[i - 1])
    {
      assert content[i] == PartnerRow(records[i - 1]);
    }
    var r := ParseLoginsFile(content);
    assert r.Some?;
    assert |r.value| == |records|;
    forall i | 0 <= i < |records|
      ensures r.value[i] == records[i]
    {
      assert BindRow(h, content[i + 1]) == Some(r.value[i]);
    }
    assert r.value == records;
  }
}

=== FILE: decimal.dfy ===
/** Decimal rendering of job identifiers, as `Integer.toString` and string
    concatenation produce it. */
module Decimal {
  import opened Wrappers

  predicate IsDigit(c: char) {
    '0' <= c <= '9'
  }

  function DigitChar(d: nat): (c: char)
    requires d < 10
    ensures IsDigit(c)
  {
    ('0' as int + d) as char
  }

  function DigitValue(c: char): nat
    requires IsDigit(c)
  {
    c as int - '0' as int
  }

  /** The shortest decimal numeral of `n`. */
  function NatToString(n: nat): (s: string)
    ensures |s| >= 1
    ensures forall i :: 0 <= i < |s| ==> IsDigit(s[i])
    ensures |s| > 1 ==> s[0] != '0'
    decreases n
  {
    if n < 10 then [DigitChar(n)] else NatToString(n / 10) + [DigitChar(n % 10)]
  }

  /** The value of a string of digits, most significant first. */
  function DigitsValue(s: string): nat
    requires forall i :: 0 <= i < |s| ==> IsDigit(s[i])
  {
    if |s| == 0 then 0 else DigitsValue(s[..|s| - 1]) * 10 + DigitValue(s[|s| - 1])
  }

  /** Reads a decimal numeral back; anything but a non-empty run of digits is
      rejected. */
  function ParseNat(s: string): (r: Option<nat>)
    ensures r.Some? <==> |s| > 0 && forall i :: 0 <= i < |s| ==> IsDigit(s[i])
  {
    if |s| > 0 && forall i :: 0 <= i < |s| ==> IsDigit(s[i]) then Some(DigitsValue(s)) else None
  }

  /** Rendering a number and reading it back yields the number. */
  lemma {:induction false} ParseNatToString(n: nat)
    ensures ParseNat(NatToString(n)) == Some(n)
    decreases n
  {
    var s := NatToString(n);
    if n < 10 {
      assert DigitsValue(s) == DigitsValue(s[..0]) * 10 + DigitValue(DigitChar(n));
    } else {
      var p := NatToString(n / 10);
      ParseNatToString(n / 10);
      assert s == p + [DigitChar(n % 10)];
      assert s[..|s| - 1] == p;
      assert DigitsValue(s) == DigitsValue(p) * 10 + n % 10;
    }
  }

  /** `Integer.toString`: a minus sign before the numeral of the magnitude
      of a negative number. */
  function IntToString(i: int): (s: string)
    ensures |s| >= 1
    ensures (s[0] == '-') <==> i < 0
  {
    if i < 0 then "-" + NatToString(-i) else NatToString(i)
  }

  /** Reads a possibly negative decimal numeral back. */
  function ParseInt(s: string): Option<int> {
    if |s| > 0 && s[0] == '-' then
      match ParseNat(s[1..])
      case Some(n) => var v: int := 0 - n as int; Some(v)
      case None => None
    else
      match ParseNat(s)
      case Some(n) => var v: int := n; Some(v)
      case None => None
  }

  /** Rendering an integer and reading it back yields the integer. */
  lemma ParseIntToString(i: int)
    ensures ParseInt(IntToString(i)) == Some(i)
  {
    if i < 0 {
      var s := IntToString(i);
      assert s[1..] == NatToString(-i);
      ParseNatToString(-i);
    } else {
      ParseNatToString(i);
    }
  }

  /** Different integers render differently, so names built from a job
      identifier tell jobs apart. */
  lemma IntToStringInjective(a: int, b: int)
    ensures IntToString(a) == IntToString(b) ==> a == b
  {
    ParseIntToString(a);
    ParseIntToString(b);
  }
}

=== FILE: filesystem.dfy ===
/** An abstract local filesystem: a map from paths to files and directories,
    with the two operations the record sources and runners use on it. */
module FileSystem {
  import opened Wrappers

  /** A path as its name segments. The empty path is the working directory,
      which always exists; a one-segment path has no parent, as a relative
      Java `Path` with one name has none. */
  type Path = seq<string>

  /** A text file as a table of cells (character decoding and CSV quoting are
      not part of this model). */
  type Content = seq<seq<string>>

  datatype Node = File(content: Content) | Directory

  type Fs = map<Path, Node>

  datatype IoError =
    | NoSuchFile(path: Path)
    | NotADirectory(path: Path)
    | DirectoryNotEmpty(path: Path)
    | FileAlreadyExists(path: Path)
    | InvalidMove(path: Path)
    | IsADirectory(path: Path)

  /** `dir.resolve(name)` for a single relative name. */
  function Resolve(dir: Path, name: string): (p: Path)
    ensures |p| == |dir| + 1 && p[..|dir|] == dir && p[|dir|] == name
  {
    dir + [name]
  }

  function FileName(p: Path): string
    requires |p| > 0
  {
    p[|p| - 1]
  }

  /** The directory an entry lives in; the working directory for a one-segment
      path. */
  function Container(p: Path): Path
    requires |p| > 0
  {
    p[..|p| - 1]
  }

  /** `getParent()`: absent for a path of one segment. */
  function Parent(p: Path): (r: Option<Path>)
    ensures r.Some? <==> |p| > 1
    ensures r.Some? ==> r.value == Container(p)
  {
    if |p| <= 1 then None else Some(p[..|p| - 1])
  }

  /** `resolveSibling(name)`: the same directory, another name. */
  function Sibling(p: Path, name: string): (s: Path)
    requires |p| > 0
    ensures |s| == |p| && Container(s) == Container(p) && FileName(s) == name
  {
    Container(p) + [name]
  }

  predicate IsDirectory(fs: Fs, p: Path) {
    p == [] || (p in fs && fs[p].Directory?)
  }

  predicate IsRegularFile(fs: Fs, p: Path) {
    p in fs && fs[p].File?
  }

  /** `p` lies somewhere inside directory `d`. */
  predicate Below(d: Path, p: Path) {
    |d| < |p| && p[..|d|] == d
  }

  predicate HasEntries(fs: Fs, d: Path) {
    exists p :: p in fs && Below(d, p)
  }

  /** Every entry sits in an existing directory. */
  predicate WellFormed(fs: Fs) {
    && [] !in fs
    && forall p :: p in fs ==> IsDirectory(fs, Container(p))
  }

  /** The conditions under which `Files.move(source, target, REPLACE_EXISTING)`
      succeeds. */
  predicate CanMove(fs: Fs, source: Path, target: Path) {
    && source in fs
    && (source != target ==>
      && !(fs[source].Directory? && HasEntries(fs, source))
      && |target| > 0
      && !Below(source, target)
      && IsDirectory(fs, Container(target))
      && !(target in fs && fs[target].Directory? && HasEntries(fs, target)))
  }

  datatype Moved = Moved(fs: Fs, target: Path)

  /** `FileUtilities.move`: renames `source` to `target`, replacing whatever
      file or empty directory was there, and returns the target path. Any
      failure is reported and leaves the filesystem as it was. */
  function Move(fs: Fs, source: Path, target: Path): (r: Result<Moved, IoError>)
    ensures r.Ok? <==> CanMove(fs, source, target)
    ensures r.Ok? ==> r.value.target == target
    ensures r.Ok? ==> target in r.value.fs && r.value.fs[target] == fs[source]
    ensures r.Ok? && source != target ==> source !in r.value.fs
    ensures r.Ok? ==> r.value.fs - {source, target} == fs - {source, target}
  {
    if source !in fs then Err(NoSuchFile(source))
    else if source == target then Ok(Moved(fs, target))
    else if fs[source].Directory? && HasEntries(fs, source) then Err(DirectoryNotEmpty(source))
    else if |target| == 0 || Below(source, target) then Err(InvalidMove(target))
    else if !IsDirectory(fs, Container(target)) then
      (if Container(target) in fs then Err(NotADirectory(Container(target))) else Err(NoSuchFile(Container(target))))
    else if target in fs && fs[target].Directory? && HasEntries(fs, target) then Err(DirectoryNotEmpty(target))
    else Ok(Moved((fs - {source})[target := fs[source]], target))
  }

  /** `Files.move` without `REPLACE_EXISTING`: as `Move`, except that an
      existing target other than the source itself is an error. */
  function MoveNoReplace(fs: Fs, source: Path, target: Path): (r: Result<Moved, IoError>)
    ensures r.Ok? <==> CanMove(fs, source, target) && (target in fs ==> target == source)
    ensures r.Ok? ==> r == Move(fs, source, target)
    ensures source in fs && source != target && target in fs ==> r == Err(FileAlreadyExists(target))
  {
    if source in fs && source != target && target in fs then Err(FileAlreadyExists(target))
    else Move(fs, source, target)
  }

  /** `Files.newBufferedWriter` or `Files.write` with the default options,
      followed by closing the file: creates or truncates the regular file
      `p` and leaves `content` in it. The working directory and any other
      directory cannot be written, nor can a file whose directory is
      missing. */
  function WriteFile(fs: Fs, p: Path, content: Content): (r: Result<Fs, IoError>)
    ensures r.Ok? <==> !IsDirectory(fs, p) && IsDirectory(fs, Container(p))
    ensures r.Ok? ==> p in r.value && r.value[p] == File(content)
    ensures r.Ok? ==> r.value - {p} == fs - {p}
  {
    if IsDirectory(fs, p) then Err(IsADirectory(p))
    else if !IsDirectory(fs, Container(p)) then
      (if Container(p) in fs then Err(NotADirectory(Container(p))) else Err(NoSuchFile(Container(p))))
    else Ok(fs[p := File(content)])
  }

  /** A successful write keeps the filesystem a tree. */
  lemma WriteFilePreservesWellFormed(fs: Fs, p: Path, content: Content)
    requires WellFormed(fs)
    requires WriteFile(fs, p, content).Ok?
    ensures WellFormed(WriteFile(fs, p, content).value)
  {
    var fs' := WriteFile(fs, p, content).value;
    forall q | q in fs'
      ensures IsDirectory(fs', Container(q))
    {
      var c := Container(q);
      if c != [] {
        assert c != p;
        if q != p {
          assert IsDirectory(fs, c);
        }
        assert c in fs' && fs'[c] == fs[c];
      }
    }
  }

  /** A successful move keeps the filesystem a tree. */
  lemma MovePreservesWellFormed(fs: Fs, source: Path, target: Path)
    requires WellFormed(fs)
    requires Move(fs, source, target).Ok?
    ensures WellFormed(Move(fs, source, target).value.fs)
  {
    var fs' := Move(fs, source, target).value.fs;
    if source != target {
      forall p | p in fs'
        ensures IsDirectory(fs', Container(p))
      {
        if p != target {
          assert p in fs;
          var c := Container(p);
          assert IsDirectory(fs, c);
          if c != [] {
            assert c != source by {
              if c == source {
                assert Below(source, p);
              }
            }
            assert c != target by {
              if c == target {
                assert Below(target, p);
              }
            }
            assert c in fs' && fs'[c] == fs[c];
          }
        } else {
          var c := Container(target);
          if c != [] {
            assert c != source;
            assert c != target;
            assert c in fs' && fs'[c] == fs[c];
          }
        }
      }
    }
  }

  /** In a well-formed filesystem every ancestor of a directory is one. */
  lemma {:induction false} AncestorsAreDirectories(fs: Fs, d: Path)
    requires WellFormed(fs)
    requires IsDirectory(fs, d)
    ensures forall i :: 1 <= i <= |d| ==> IsDirectory(fs, d[..i])
    decreases |d|
  {
    if |d| > 0 {
      var up := Container(d);
      assert d in fs;
      AncestorsAreDirectories(fs, up);
      forall i | 1 <= i <= |d|
        ensures IsDirectory(fs, d[..i])
      {
        if i < |d| {
          assert d[..i] == up[..i];
        } else {
          assert d[..i] == d;
        }
      }
    }
  }

  /** `p` is the directory `dir` or one of its ancestors (the working
      directory excluded). */
  predicate IsPrefix(p: Path, dir: Path) {
    0 < |p| <= |dir| && dir[..|p|] == p
  }

  /** `Files.createDirectories`: creates `dir` and every missing ancestor;
      an existing directory is left alone, an existing non-directory on the
      way is an error. */
  function CreateDirectories(fs: Fs, dir: Path): (r: Result<Fs, IoError>)
    ensures r.Ok? <==> forall i :: 1 <= i <= |dir| ==> !IsRegularFile(fs, dir[..i])
    ensures r.Ok? ==> forall i :: 1 <= i <= |dir| ==> IsDirectory(r.value, dir[..i])
    ensures r.Ok? ==> fs.Keys <= r.value.Keys && forall p :: p in fs ==> r.value[p] == fs[p]
    ensures r.Ok? ==> forall p :: p in r.value && p !in fs ==> IsPrefix(p, dir) && r.value[p] == Directory
    decreases |dir|
  {
    if |dir| == 0 then Ok(fs)
    else
      var up := dir[..|dir| - 1];
      assert forall i :: 1 <= i <= |up| ==> up[..i] == dir[..i];
      match CreateDirectories(fs, up)
      case Err(e) => Err(e)
      case Ok(fs1) =>
        assert dir[..|dir|] == dir;
        if dir in fs1 then
          (if fs1[dir].Directory? then Ok(fs1) else Err(FileAlreadyExists(dir)))
        else Ok(fs1[dir := Directory])
  }

  /** Creating directories that already exist changes nothing. */
  lemma {:induction false} CreateExistingDirectories(fs: Fs, dir: Path)
    requires forall i :: 1 <= i <= |dir| ==> IsDirectory(fs, dir[..i])
    ensures CreateDirectories(fs, dir) == Ok(fs)
    decreases |dir|
  {
    if |dir| > 0 {
      var up := dir[..|dir| - 1];
      assert forall i :: 1 <= i <= |up| ==> up[..i] == dir[..i];
      CreateExistingDirectories(fs, up);
      assert dir[..|dir|] == dir;
    }
  }

  /** `createDirectories` is idempotent. */
  lemma CreateDirectoriesIdempotent(fs: Fs, dir: Path)
    requires CreateDirectories(fs, dir).Ok?
    ensures CreateDirectories(CreateDirectories(fs, dir).value, dir) == CreateDirectories(fs, dir)
  {
    CreateExistingDirectories(CreateDirectories(fs, dir).value, dir);
  }

  /** Creating directories keeps the filesystem a tree. */
  lemma {:induction false} CreateDirectoriesPreservesWellFormed(fs: Fs, dir: Path)
    requires WellFormed(fs)
    requires CreateDirectories(fs, dir).Ok?
    ensures WellFormed(CreateDirectories(fs, dir).value)
    decreases |dir|
  {
    if |dir| > 0 {
      var up := dir[..|dir| - 1];
      assert forall i :: 1 <= i <= |up| ==> up[..i] == dir[..i];
      CreateDirectoriesPreservesWellFormed(fs, up);
      var fs1 := CreateDirectories(fs, up).value;
      if dir !in fs1 {
        var fs2 := fs1[dir := Directory];
        forall p | p in fs2
          ensures IsDirectory(fs2, Container(p))
        {
          if p == dir {
            assert Container(dir) == up;
            if |up| > 0 {
              assert up[..|up|] == up;
            }
          } else {
            assert IsDirectory(fs1, Container(p));
          }
        }
      }
    }
  }
}

=== FILE: http.dfy ===
/** The HTTP vocabulary of the model: decoded JSON payloads, request
    descriptions, and the line-by-line download of `fetchLines`. */
module Http {

  /** A decoded JSON value. Numbers keep an integer value only; the model
      never looks at them. */
  datatype Json =
    | JString(s: string)
    | JNumber(value: int)
    | JBool(b: bool)
    | JNull
    | JArray(items: seq<Json>)
    | JObject(fields: map<string, Json>)

  /** A response body decoded into a string-keyed map. */
  type Response = map<string, Json>

  datatype Verb = Get | Post

  /** Where a request goes: a URL assembled from host, path segments and
      query parameters, or a URL taken verbatim from a response. */
  datatype Target =
    | Endpoint(host: string, segments: seq<string>, query: seq<(string, string)>)
    | Url(url: string)

  /** A request and the table it uploads (empty for a request without a
      body). */
  datatype Request = Request(verb: Verb, target: Target, headers: seq<(string, string)>, body: seq<seq<string>>)

  /** One `readLine` on the response body: a line, or an I/O failure (a
      connection failure before the first line is a failure at position 0). */
  datatype LineRead = Line(text: string) | ReadFailure

  /** The lines handed to the line handler, and whether the download ended
      in a rethrown failure. */
  datatype Fetched = Fetched(delivered: seq<string>, failed: bool)

  /** `fetchLines`: hands every line to the handler once, in order, until
      the body ends or a read fails; lines already handed over stay handed
      over when the failure is rethrown. */
  function FetchLines(body: seq<LineRead>): (r: Fetched)
    ensures |r.delivered| <= |body|
    ensures forall i :: 0 <= i < |r.delivered| ==> body[i] == Line(r.delivered[i])
    ensures r.failed ==> |r.delivered| < |body| && body[|r.delivered|] == ReadFailure
    ensures !r.failed ==> |r.delivered| == |body|
    decreases |body|
  {
    if |body| == 0 then Fetched([], false)
    else match body[0]
      case ReadFailure => Fetched([], true)
      case Line(text) =>
        var rest := FetchLines(body[1..]);
        Fetched([text] + rest.delivered, rest.failed)
  }

  /** The download fails exactly when some read fails, and then every line
      before the first failure has been delivered. */
  lemma FetchLinesFailsIffSomeReadFails(body: seq<LineRead>)
    ensures FetchLines(body).failed <==> ReadFailure in body
    ensures FetchLines(body).failed ==> ReadFailure !in body[..|FetchLines(body).delivered|]
  {
    var r := FetchLines(body);
    if !r.failed {
      forall i | 0 <= i < |body|
        ensures body[i] != ReadFailure
      {
        assert body[i] == Line(r.delivered[i]);
      }
    } else {
      forall i | 0 <= i < |r.delivered|
        ensures body[..|r.delivered|][i] != ReadFailure
      {
        assert body[i] == Line(r.delivered[i]);
      }
    }
  }
}

=== FILE: legacy_runner.dfy ===
/** `Application.Runner.run`, the older logins job: it writes the CSV
    straight from the SIS query, suffixing every root account with the
    Canvas trust suffix, uploads it, and polls the import with no time
    ceiling. It neither archives the file nor copies an error report. */
module LegacyRunner {
  import opened Wrappers
  import opened Http
  import opened Polling
  import opened FileSystem
  import opened CrossEnrollment
  import opened Sql
  import opened LoginsCsv
  import BannerSource

  /** `Duration.ofSeconds(5)` between status requests. */
  const StatusInterval: nat := 5

  /** The configured Canvas instance, `outputFile` and `canvasTrustSuffix`. */
  datatype Settings = Settings(canvas: Canvas, output: Path, trustSuffix: string)

  /** What the outside world does during a run: the rows of the SIS query
      (`None` when it throws), the decoded upload response (`None` when the
      call or the decoding throws), the status endpoint, and the clock when
      polling starts. */
  datatype World = World(query: Option<seq<Row>>, upload: Option<Response>, status: Script, now: nat)

  /** Java string concatenation with a possibly `null` left operand, which
      reads as the four letters `null`. */
  function Concat(t: Text, suffix: string): (r: string)
    ensures |r| >= |suffix| && r[|r| - |suffix|..] == suffix
    ensures t.Some? ==> |r| == |t.value| + |suffix| && r[..|t.value|] == t.value
    ensures t.None? ==> |r| == 4 + |suffix| && r[..4] == "null"
  {
    (if t.Some? then t.value else "null") + suffix
  }

  /** One CSV line from one row: the four columns are cast to `String` in
      CSV order, and the root account gets the suffix. */
  function LegacyRow(row: Row, suffix: string): (r: Result<seq<string>, SqlError>)
    ensures r.Ok? <==> BannerSource.RowCastable(row)
    ensures r.Ok? ==> |r.value| == |CsvHeader|
    ensures r.Ok? ==> forall j :: 0 <= j < 3 ==> r.value[j] == CellText(BannerSource.Cell(row, CsvHeader[j]))
    ensures r.Ok? ==> r.value[3] == Concat(BannerSource.Cell(row, CsvHeader[3]), suffix)
    ensures r.Err? ==> r.error.NotAString? && r.error.column in CsvHeader && !Castable(row, r.error.column)
  {
    var user :- StringColumn(row, CsvHeader[0]);
    var login :- StringColumn(row, CsvHeader[1]);
    var existing :- StringColumn(row, CsvHeader[2]);
    var root :- StringColumn(row, CsvHeader[3]);
    Ok([CellText(user), CellText(login), CellText(existing), Concat(root, suffix)])
  }

  /** The lines the writer has received, and the exception that ended the
      loop if any. */
  datatype Written = Written(lines: seq<seq<string>>, failure: Option<SqlError>)

  /** The `forEach` over the query rows: each row becomes a line until one
      cannot be cast, which ends the loop with the lines before it already
      written. */
  function LegacyRows(rows: seq<Row>, suffix: string): (w: Written)
    ensures w.failure.None? <==> forall i :: 0 <= i < |rows| ==> BannerSource.RowCastable(rows[i])
    ensures w.failure.None? ==> |w.lines| == |rows|
    ensures w.failure.Some? ==>
      && |w.lines| < |rows|
      && LegacyRow(rows[|w.lines|], suffix) == Err(w.failure.value)
    ensures |w.lines| <= |rows|
    ensures forall i :: 0 <= i < |w.lines| ==> LegacyRow(rows[i], suffix) == Ok(w.lines[i])
    decreases |rows|
  {
    if |rows| == 0 then Written([], None)
    else match LegacyRow(rows[0], suffix)
      case Err(e) => Written([], Some(e))
      case Ok(line) =>
        var rest := LegacyRows(rows[1..], suffix);
        assert forall i :: 1 <= i < |rows| ==> rows[i] == rows[1..][i - 1];
        Written([line] + rest.lines, rest.failure)
  }

  /** What the file holds when the writer closes: the header, written before
      the query runs, then the lines of the rows before any failure. A query
      that throws leaves just the header. */
  function LegacyCsv(query: Option<seq<Row>>, suffix: string): (w: Written)
    ensures |w.lines| >= 1 && w.lines[0] == CsvHeader
    ensures query.None? ==> w == Written([CsvHeader], Some(QueryFailed))
    ensures query.Some? ==>
      w.lines[1..] == LegacyRows(query.value, suffix).lines && w.failure == LegacyRows(query.value, suffix).failure
  {
    match query
    case None => Written([CsvHeader], Some(QueryFailed))
    case Some(rows) =>
      var body := LegacyRows(rows, suffix);
      Written([CsvHeader] + body.lines, body.failure)
  }

  /** After the upload: the job id is read from the response, then the
      job's status is polled every 5 seconds with no ceiling. */
  function Import(s: Settings, fs: Fs, w: World): (run: Trace)
    ensures run.fs == fs && run.errorLog == []
    ensures |run.requests| <= MaxAttempts
    ensures !run.exit.ExitedEarly? && run.exit != Crashed(PollFailed(TimedOut))
  {
    match w.upload
    case None => Trace(fs, [], [], Crashed(UploadFailed))
    case Some(response) =>
      match ImportId(response)
      case Err(f) => Trace(fs, [], [], Crashed(f))
      case Ok(id) =>
        var o := PollJsonApi(Some(ImportFinished), w.status, StatusInterval, w.now);
        After(StatusPolls(s.canvas, id, o.attempts),
          Trace(fs, [], [], if o.result.Returned? then Finished else Crashed(PollFailed(o.result))))
  }

  /** `run`: the output directory is created when the path has one, the CSV
      is written, and when every row made it into the file the file is
      uploaded and the job followed. There is no check for an empty batch. */
  function Run(s: Settings, fs: Fs, w: World): (run: Trace)
    ensures run.errorLog == []
    ensures |run.requests| <= MaxAttempts + 1
    ensures !run.exit.ExitedEarly? && run.exit != Crashed(PollFailed(TimedOut))
    ensures run.requests != [] ==>
      && LegacyCsv(w.query, s.trustSuffix).failure.None?
      && run.requests[0] == ImportRequest(s.canvas, LegacyCsv(w.query, s.trustSuffix).lines)
  {
    match CreateOutputDirectory(fs, s.output)
    case Err(f) => Trace(fs, [], [], Crashed(f))
    case Ok(fs1) =>
      var csv := LegacyCsv(w.query, s.trustSuffix);
      match WriteFile(fs1, s.output, csv.lines)
      case Err(e) => Trace(fs1, [], [], Crashed(WriteFailed(e)))
      case Ok(fs2) =>
        if csv.failure.Some? then Trace(fs2, [], [], Crashed(RowsFailed(csv.failure.value)))
        else After([ImportRequest(s.canvas, csv.lines)], Import(s, fs2, w))
  }

  /** A row that casts and has a root account gives the same line as the
      newer runner writes for the record the Banner source makes of it,
      once the trust suffix is empty; a `null` root account is written as
      the text `null` here and as an empty field there. */
  lemma LegacyRowMatchesRecordRow(row: Row)
    requires BannerSource.RowCastable(row)
    ensures BannerSource.ToRecord(row).Ok?
    ensures var newer := RecordRow(BannerSource.ToRecord(row).value);
      var older := LegacyRow(row, "").value;
      && older[..3] == newer[..3]
      && (BannerSource.Cell(row, BannerSource.RootAccount).Some? ==> older == newer)
      && (BannerSource.Cell(row, BannerSource.RootAccount).None? ==> older[3] == "null" && newer[3] == "")
  {
    LoginsCsv.BannerColumnsLineUp(row);
    var newer := RecordRow(BannerSource.ToRecord(row).value);
    var older := LegacyRow(row, "").value;
    assert forall j :: 0 <= j < 3 ==> older[j] == newer[j];
    if BannerSource.Cell(row, BannerSource.RootAccount).Some? {
      assert older[3] == newer[3];
    }
  }

  /** A run whose CSV is written but stopped on a bad row ends there: it
      sends nothing, and the output file holds what the writer received. */
  lemma BadRowLeavesPartialCsv(s: Settings, fs: Fs, w: World)
    requires Prepared(s, fs, w).Some? && LegacyCsv(w.query, s.trustSuffix).failure.Some?
    ensures var run := Run(s, fs, w);
      && run.requests == []
      && run.exit == Crashed(RowsFailed(LegacyCsv(w.query, s.trustSuffix).failure.value))
      && s.output in run.fs && run.fs[s.output] == File(LegacyCsv(w.query, s.trustSuffix).lines)
  {
    RunAfterWrite(s, fs, w);
  }

  /** The filesystem once the output directory step and the write of the
      CSV have succeeded. */
  function Prepared(s: Settings, fs: Fs, w: World): (r: Option<Fs>)
    ensures r.Some? ==> s.output in r.value && r.value[s.output] == File(LegacyCsv(w.query, s.trustSuffix).lines)
  {
    match CreateOutputDirectory(fs, s.output)
    case Err(_) => None
    case Ok(fs1) =>
      match WriteFile(fs1, s.output, LegacyCsv(w.query, s.trustSuffix).lines)
      case Err(_) => None
      case Ok(fs2) => Some(fs2)
  }

  /** How a run goes on from the written CSV: a failed preparation ends it
      with an I/O failure, a bad row ends it without a request, and a
      complete file is uploaded. */
  lemma RunAfterWrite(s: Settings, fs: Fs, w: World)
    ensures var run := Run(s, fs, w);
      var csv := LegacyCsv(w.query, s.trustSuffix);
      match Prepared(s, fs, w)
      case None =>
        run.requests == [] && run.exit.Crashed?
        && (run.exit.failure.NoParent? || run.exit.failure.DirectoryFailed? || run.exit.failure.WriteFailed?)
      case Some(fs2) =>
        if csv.failure.Some? then run == Trace(fs2, [], [], Crashed(RowsFailed(csv.failure.value)))
        else run == After([ImportRequest(s.canvas, csv.lines)], Import(s, fs2, w))
  {
  }

  /** The file the writer leaves after a bad row holds the header and the
      lines of exactly the rows before the first row that does not cast. */
  lemma PartialCsvStopsAtFirstBadRow(rows: seq<Row>, suffix: string)
    requires LegacyCsv(Some(rows), suffix).failure.Some?
    ensures var lines := LegacyCsv(Some(rows), suffix).lines;
      && |lines| - 1 < |rows|
      && !BannerSource.RowCastable(rows[|lines| - 1])
      && forall i :: 0 <= i < |lines| - 1 ==>
           BannerSource.RowCastable(rows[i]) && LegacyRow(rows[i], suffix) == Ok(lines[i + 1])
  {
    var lines := LegacyCsv(Some(rows), suffix).lines;
    var body := LegacyRows(rows, suffix).lines;
    assert lines == [CsvHeader] + body;
    forall i | 0 <= i < |lines| - 1
      ensures BannerSource.RowCastable(rows[i]) && LegacyRow(rows[i], suffix) == Ok(lines[i + 1])
    {
      assert lines[i + 1] == body[i];
    }
  }

  /** Unlike the newer runner, an empty query result is still uploaded: a
      file holding only the header. */
  lemma EmptyQueryIsUploaded(s: Settings, fs: Fs, w: World)
    requires w.query == Some([])
    requires |s.output| > 0
    requires forall i :: 1 <= i < |s.output| ==> !IsRegularFile(fs, s.output[..i])
    requires !IsDirectory(fs, s.output)
    ensures |Run(s, fs, w).requests| >= 1
    ensures Run(s, fs, w).requests[0] == ImportRequest(s.canvas, [CsvHeader])
  {
    var fs1 := CreateOutputDirectory(fs, s.output).value;
    assert !IsDirectory(fs1, s.output);
    assert LegacyCsv(w.query, s.trustSuffix).lines == [CsvHeader];
  }

  /** When every row casts and the upload names a job, the run finishes
      unless the poll does not return, and the CSV stays at the output
      path: one line per row after the header. */
  lemma LegacyRunFinishes(s: Settings, fs: Fs, w: World)
    requires w.query.Some? && forall i :: 0 <= i < |w.query.value| ==> BannerSource.RowCastable(w.query.value[i])
    requires |s.output| > 0
    requires forall i :: 1 <= i < |s.output| ==> !IsRegularFile(fs, s.output[..i])
    requires !IsDirectory(fs, s.output)
    requires w.upload.Some? && "id" in w.upload.value && w.upload.value["id"].JNumber?
    requires PollJsonApi(Some(ImportFinished), w.status, StatusInterval, w.now).result.Returned?
    ensures Run(s, fs, w).exit == Finished
    ensures var lines := LegacyCsv(w.query, s.trustSuffix).lines;
      && s.output in Run(s, fs, w).fs && Run(s, fs, w).fs[s.output] == File(lines)
      && |lines| == |w.query.value| + 1
  {
    var fs1 := CreateOutputDirectory(fs, s.output).value;
    assert !IsDirectory(fs1, s.output);
  }
}

=== FILE: logins_csv.dfy ===
/** What both logins runners share: the Canvas logins CSV they write, the
    SIS import API requests they make, the watch that decides when an import
    has finished, and the record of what a run did. */
module LoginsCsv {
  import opened Wrappers
  import opened Decimal
  import opened Http
  import opened Polling
  import opened FileSystem
  import opened CrossEnrollment
  import opened Sql
  import BannerSource

  /** `CSV_HEADER`: the columns of a Canvas `logins.csv`. */
  const CsvHeader: seq<string> := ["user_id", "login_id", "existing_user_id", "root_account"]

  /** A `null` cell is written as an empty field. */
  function CellText(t: Text): string {
    if t.Some? then t.value else ""
  }

  /** The CSV row of one record: the teaching college's id as `user_id`,
      the home college login as `login_id`, the home college id as
      `existing_user_id` and the Canvas root account. */
  function RecordRow(r: Record): seq<string> {
    [CellText(r.teachingCollegeId), CellText(r.homeCollegeLoginId), CellText(r.homeCollegeId), CellText(r.canvasRootAccount)]
  }

  function RecordRows(records: seq<Record>): (rows: seq<seq<string>>)
    ensures |rows| == |records|
    ensures forall i :: 0 <= i < |records| ==> rows[i] == RecordRow(records[i])
    decreases |records|
  {
    if |records| == 0 then [] else [RecordRow(records[0])] + RecordRows(records[1..])
  }

  /** The whole file: the header line, then one line per record in order. */
  function CsvContent(records: seq<Record>): (content: Content)
    ensures |content| == |records| + 1 && content[0] == CsvHeader
    ensures forall i :: 0 <= i < |records| ==> content[i + 1] == RecordRow(records[i])
  {
    [CsvHeader] + RecordRows(records)
  }

  /** The partner-file columns feeding the CSV columns, in CSV order. */
  const PartnerColumns: seq<string> := [TeachingIdColumn, LoginIdColumn, HomeIdColumn, RootAccountColumn]

  /** A record bound from a partner file puts, under each CSV column, the
      partner cell of the column mapped to it. */
  lemma PartnerColumnsLineUp(header: seq<string>, row: seq<string>)
    requires BindRow(header, row).Some?
    ensures |RecordRow(BindRow(header, row).value)| == |CsvHeader| == |PartnerColumns|
    ensures forall j :: 0 <= j < |CsvHeader| ==>
      PartnerColumns[j] in header && RecordRow(BindRow(header, row).value)[j] == row[IndexOf(header, PartnerColumns[j]).value]
  {
  }

  /** A record read from the Banner staging table puts, under each CSV
      column, the table column of the same name. */
  lemma BannerColumnsLineUp(row: Row)
    requires BannerSource.RowCastable(row)
    ensures BannerSource.ToRecord(row).Ok?
    ensures |RecordRow(BannerSource.ToRecord(row).value)| == |CsvHeader|
    ensures forall j :: 0 <= j < |CsvHeader| ==>
      Castable(row, CsvHeader[j]) &&
      RecordRow(BannerSource.ToRecord(row).value)[j] == CellText(BannerSource.Cell(row, CsvHeader[j]))
  {
  }

  /** How the import side reads a `logins.csv` back: by the fixed header, an
      empty field meaning no value. */
  function ReadCell(c: string): (t: Text)
    ensures CellText(t) == c
  {
    if c == "" then None else Some(c)
  }

  function ReadLoginsCsv(content: Content): (r: Option<seq<Record>>)
    ensures r.Some? ==> |r.value| == |content| - 1
  {
    if |content| == 0 || content[0] != CsvHeader then None
    else ReadRows(content[1..])
  }

  function ReadRows(rows: seq<seq<string>>): (r: Option<seq<Record>>)
    ensures r.Some? ==> |r.value| == |rows|
    ensures r.Some? ==> forall i :: 0 <= i < |rows| ==> RecordRow(r.value[i]) == rows[i]
    decreases |rows|
  {
    if |rows| == 0 then Some([])
    else if |rows[0]| != |CsvHeader| then None
    else
      var row := rows[0];
      match ReadRows(rows[1..])
      case None => None
      case Some(rest) =>
        Some([Record(ReadCell(row[3]), ReadCell(row[2]), ReadCell(row[1]), ReadCell(row[0]))] + rest)
  }

  /** No field holds the empty string (which the CSV cannot tell from a
      missing value). Records bound from partner files never do. */
  predicate NoEmptyText(r: Record) {
    && r.canvasRootAccount != Some("") && r.homeCollegeId != Some("")
    && r.homeCollegeLoginId != Some("") && r.teachingCollegeId != Some("")
  }

  /** The uploaded file carries every record: reading it back by header
      yields the records, provided none holds an empty string. */
  lemma {:induction false} CsvRoundTrip(records: seq<Record>)
    requires forall i :: 0 <= i < |records| ==> NoEmptyText(records[i])
    ensures ReadLoginsCsv(CsvContent(records)) == Some(records)
    decreases |records|
  {
    var content := CsvContent(records);
    assert content[0] == CsvHeader;
    assert content[1..] == RecordRows(records);
    RowsRoundTrip(records);
  }

  lemma {:induction false} RowsRoundTrip(records: seq<Record>)
    requires forall i :: 0 <= i < |records| ==> NoEmptyText(records[i])
    ensures ReadRows(RecordRows(records)) == Some(records)
    decreases |records|
  {
    if |records| > 0 {
      var rows := RecordRows(records);
      assert rows[1..] == RecordRows(records[1..]);
      RowsRoundTrip(records[1..]);
      assert records == [records[0]] + records[1..];
    }
  }

  // ---------------------------------------------------------------------
  // The SIS import API.

  const ImportQuery: seq<(string, string)> := [("import_type", "instructure_csv"), ("extension", "csv")]

  function ImportSegments(account: string): seq<string> {
    ["api", "v1", "accounts", account, "sis_imports"]
  }

  function Authorization(token: string): (string, string) {
    ("Authorization", "Bearer " + token)
  }

  /** Where and how a runner talks to Canvas. */
  datatype Canvas = Canvas(host: string, account: string, token: string)

  /** The upload of the CSV file that creates an import job: an
      authenticated POST of the file to the account's import collection. */
  function ImportRequest(c: Canvas, body: Content): (r: Request)
    ensures r.verb == Post && r.body == body && r.headers == [("Authorization", "Bearer " + c.token)]
    ensures r.target.Endpoint? && r.target.host == c.host && r.target.query == ImportQuery
    ensures |r.target.segments| == 5 && r.target.segments[3] == c.account
  {
    Request(Post, Endpoint(c.host, ImportSegments(c.account), ImportQuery), [Authorization(c.token)], body)
  }

  /** The status request of job `id`: an authenticated GET, without a body,
      of the job inside the account's import collection. */
  function StatusRequest(c: Canvas, id: int): (r: Request)
    ensures r.verb == Get && r.body == [] && r.headers == [("Authorization", "Bearer " + c.token)]
    ensures r.target.Endpoint? && r.target.host == c.host && r.target.query == ImportQuery
    ensures |r.target.segments| == 6 && r.target.segments[3] == c.account
    ensures ParseInt(r.target.segments[5]) == Some(id)
  {
    ParseIntToString(id);
    Request(Get, Endpoint(c.host, ImportSegments(c.account) + [IntToString(id)], ImportQuery), [Authorization(c.token)], [])
  }

  /** The status request goes to the import collection of the same account,
      with the same query and credentials, one segment further down; that
      segment reads back as the job's id, so different jobs are polled at
      different URLs. */
  lemma StatusRequestNamesTheJob(c: Canvas, body: Content, id: int)
    ensures var upload := ImportRequest(c, body).target;
      var status := StatusRequest(c, id).target;
      && status.host == upload.host && status.query == upload.query
      && |status.segments| == |upload.segments| + 1
      && status.segments[..|upload.segments|] == upload.segments
      && ParseInt(status.segments[|upload.segments|]) == Some(id)
    ensures StatusRequest(c, id).headers == ImportRequest(c, body).headers
  {
    ParseIntToString(id);
  }

  lemma StatusRequestsDistinguishJobs(c: Canvas, a: int, b: int)
    ensures StatusRequest(c, a) == StatusRequest(c, b) ==> a == b
  {
    if StatusRequest(c, a) == StatusRequest(c, b) {
      assert StatusRequest(c, a).target.segments[5] == IntToString(a);
      IntToStringInjective(a, b);
    }
  }

  // ---------------------------------------------------------------------
  // The job identifier.

  const IntMin: int := -0x8000_0000
  const IntMax: int := 0x7fff_ffff

  /** `Double.intValue()` of an integral value: the value, saturated to
      the 32-bit range. */
  function IntValue(v: int): (i: int)
    ensures IntMin <= i <= IntMax
    ensures IntMin <= v <= IntMax ==> i == v
    ensures v < IntMin ==> i == IntMin
    ensures v > IntMax ==> i == IntMax
  {
    if v < IntMin then IntMin else if v > IntMax then IntMax else v
  }

  /** Why a run stopped with an exception. */
  datatype Failure =
    | SourceFailed
    | NoParent
    | DirectoryFailed(cause: IoError)
    | WriteFailed(cause: IoError)
    | RowsFailed(error: SqlError)
    | UploadFailed
    | IdMissing
    | IdNotANumber
    | PollFailed(result: PollResult)
    | ArchiveFailed(cause: IoError)
    | AttachmentUnreadable
    | DownloadFailed

  /** `((Double) response.get("id")).intValue()`: the decoder reads every
      JSON number as a `Double`; a missing or `null` id throws on unboxing,
      any other value on the cast. */
  function ImportId(response: Response): (r: Result<int, Failure>)
    ensures r.Ok? <==> "id" in response && response["id"].JNumber?
    ensures r.Ok? ==> r.value == IntValue(response["id"].value) && IntMin <= r.value <= IntMax
    ensures r.Err? ==> (r.error == IdMissing <==> "id" !in response || response["id"] == JNull)
  {
    if "id" !in response then Err(IdMissing)
    else match response["id"]
      case JNumber(v) => Ok(IntValue(v))
      case JNull => Err(IdMissing)
      case _ => Err(IdNotANumber)
  }

  // ---------------------------------------------------------------------
  // The watch.

  const WorkflowState := "workflow_state"

  /** The states of an import that is still running. */
  const PendingStates: set<string> := {"initializing", "created", "importing"}

  /** The compiled expression `workflow_state != 'initializing' and
      workflow_state != 'created' and workflow_state != 'importing'`,
      evaluated with map access: an absent `workflow_state` key cannot be
      resolved and throws; any value other than those three strings
      (another state, a number, `null`) satisfies it. */
  function ImportFinished(response: Response): (v: Verdict)
    ensures v == Throws <==> WorkflowState !in response
    ensures v == Holds <==>
      WorkflowState in response
      && !(response[WorkflowState].JString? && response[WorkflowState].s in PendingStates)
  {
    if WorkflowState !in response then Throws
    else match response[WorkflowState]
      case JString(state) => if state in PendingStates then DoesNotHold else Holds
      case _ => Holds
  }

  /** The watch ends the poll on exactly the responses whose state is
      present and not pending: Canvas's finished states all qualify. */
  lemma ImportFinishedOnFinalStates(response: Response, state: string)
    requires WorkflowState in response && response[WorkflowState] == JString(state)
    ensures ImportFinished(response) == Holds <==> state !in PendingStates
    ensures state in {"imported", "imported_with_messages", "failed", "failed_with_messages", "aborted"} ==>
      ImportFinished(response) == Holds
  {
  }

  /** A status poll returns a still-pending job only after every permitted
      attempt has been spent. */
  lemma PollReturnsFinishedJob(script: Script, interval: nat, now: nat)
    ensures var o := Poll(Some(ImportFinished), script, interval, now);
      o.result.Returned? ==>
        && WorkflowState in o.result.response
        && (o.attempts < MaxAttempts ==>
              !(o.result.response[WorkflowState].JString? && o.result.response[WorkflowState].s in PendingStates))
  {
  }

  // ---------------------------------------------------------------------
  // The errors attachment.

  const ErrorsAttachment := "errors_attachment"

  /** The URL of the errors file, `None` when the final status has no
      `errors_attachment` key. Casting a non-object to a map, a `null`
      attachment, and a missing, `null` or non-string `url` all throw. */
  function ErrorsUrl(response: Response): (r: Result<Option<string>, Failure>)
    ensures r == Ok(None) <==> ErrorsAttachment !in response
    ensures r.Ok? && r.value.Some? ==>
      && response[ErrorsAttachment].JObject?
      && "url" in response[ErrorsAttachment].fields
      && response[ErrorsAttachment].fields["url"] == JString(r.value.value)
    ensures r.Err? ==> r.error == AttachmentUnreadable
  {
    if ErrorsAttachment !in response then Ok(None)
    else match response[ErrorsAttachment]
      case JObject(fields) =>
        if "url" in fields && fields["url"].JString? then Ok(Some(fields["url"].s))
        else Err(AttachmentUnreadable)
      case _ => Err(AttachmentUnreadable)
  }

  // ---------------------------------------------------------------------
  // The output directory.

  /** The older runner's `Optional`-guarded output directory step: the
      directory of the output file is created only when the path has a
      parent, since a bare file name lives in the working directory, which
      exists. Afterwards the file's directory exists. */
  function CreateOutputDirectory(fs: Fs, output: Path): (r: Result<Fs, Failure>)
    ensures |output| <= 1 ==> r == Ok(fs)
    ensures r.Ok? <==> forall i :: 1 <= i < |output| ==> !IsRegularFile(fs, output[..i])
    ensures r.Ok? && |output| > 0 ==> IsDirectory(r.value, Container(output))
    ensures r.Ok? ==> fs.Keys <= r.value.Keys && forall p :: p in fs ==> r.value[p] == fs[p]
    ensures r.Ok? ==> forall p :: p in r.value && p !in fs ==> |p| < |output| && r.value[p] == Directory
  {
    match Parent(output)
    case None => Ok(fs)
    case Some(d) =>
      assert forall i :: 1 <= i <= |d| ==> d[..i] == output[..i];
      match CreateDirectories(fs, d)
      case Err(e) => Err(DirectoryFailed(e))
      case Ok(fs') =>
        assert d[..|d|] == d;
        Ok(fs')
  }

  // ---------------------------------------------------------------------
  // What a run did.

  datatype Exit = Finished | ExitedEarly | Crashed(failure: Failure)

  /** The filesystem after the run, the requests it sent in order, the lines
      it wrote to the SIS errors log, and how it ended. */
  datatype Trace = Trace(fs: Fs, requests: seq<Request>, errorLog: seq<string>, exit: Exit)

  /** `run` preceded by the requests `sent`. */
  function After(sent: seq<Request>, run: Trace): (r: Trace)
    ensures r.fs == run.fs && r.errorLog == run.errorLog && r.exit == run.exit
    ensures r.requests == sent + run.requests
  {
    run.(requests := sent + run.requests)
  }

  /** The status requests of a poll that issued `attempts` requests. */
  function StatusPolls(c: Canvas, id: int, attempts: nat): (rs: seq<Request>)
    ensures |rs| == attempts
    ensures forall i :: 0 <= i < attempts ==> rs[i] == StatusRequest(c, id)
  {
    seq(attempts, _ => StatusRequest(c, id))
  }
}

=== FILE: logins_runner.dfy ===
/** `LoginsCsvApplication.Runner.run`: turns the configured source's
    cross-enrollment records into a Canvas `logins.csv`, uploads it as an
    SIS import, polls the import to the end, archives the file and the
    final status, and copies the import's error report into the SIS errors
    log. */
module LoginsRunner {
  import opened Wrappers
  import opened Decimal
  import opened Http
  import opened Polling
  import opened FileSystem
  import opened CrossEnrollment
  import opened LoginsCsv

  /** `Duration.ofSeconds(15)` between status requests. */
  const StatusInterval: nat := 15

  /** The configured Canvas instance and `outputFile`. */
  datatype Settings = Settings(canvas: Canvas, output: Path)

  /** What the outside world does during a run: the decoded response of
      the upload (`None` when `call` throws), the status endpoint, the clock
      when polling starts, the body of the errors download, and the
      pretty-printer of the status log. */
  datatype World = World(
    upload: Option<Response>,
    status: Script,
    now: nat,
    errorsBody: seq<LineRead>,
    render: Response -> string)

  /** `canvas_sis_import_status_<id>.log`. */
  function StatusLogName(id: int): (n: string)
    ensures |n| > 29 && n[..25] == "canvas_sis_import_status_" && n[|n| - 4..] == ".log"
    ensures ParseInt(n[25..|n| - 4]) == Some(id)
  {
    var n := "canvas_sis_import_status_" + IntToString(id) + ".log";
    assert n[25..|n| - 4] == IntToString(id);
    ParseIntToString(id);
    n
  }

  /** `logins_<id>.csv`. */
  function ArchiveName(id: int): (n: string)
    ensures |n| > 11 && n[..7] == "logins_" && n[|n| - 4..] == ".csv"
    ensures ParseInt(n[7..|n| - 4]) == Some(id)
  {
    var n := "logins_" + IntToString(id) + ".csv";
    assert n[7..|n| - 4] == IntToString(id);
    ParseIntToString(id);
    n
  }

  /** Archive and status-log names tell jobs apart and never collide with
      each other. */
  lemma NamesDistinguishJobs(a: int, b: int)
    ensures ArchiveName(a) == ArchiveName(b) ==> a == b
    ensures StatusLogName(a) == StatusLogName(b) ==> a == b
    ensures ArchiveName(a) != StatusLogName(b)
  {
    var x := ArchiveName(a);
    var y := ArchiveName(b);
    assert x[7..|x| - 4] == IntToString(a);
    assert y[7..|y| - 4] == IntToString(b);
    var u := StatusLogName(a);
    var v := StatusLogName(b);
    assert u[25..|u| - 4] == IntToString(a);
    assert v[25..|v| - 4] == IntToString(b);
    IntToStringInjective(a, b);
    assert x[0] != v[0];
  }

  /** The directory of the output file as written: `getParent()` is passed
      to `Files.createDirectories` unchecked, so an output path without a
      parent (a bare file name) throws `NullPointerException`. */
  function CreateOutputDirectoryAsWritten(fs: Fs, output: Path): (r: Result<Fs, Failure>)
    ensures |output| <= 1 ==> r == Err(NoParent)
    ensures |output| > 1 ==> r.Ok? == CreateDirectories(fs, Container(output)).Ok?
    ensures |output| > 1 ==> r == CreateOutputDirectory(fs, output)
  {
    match Parent(output)
    case None => Err(NoParent)
    case Some(d) =>
      match CreateDirectories(fs, d)
      case Err(e) => Err(DirectoryFailed(e))
      case Ok(fs') => Ok(fs')
  }

  /** The two agree whenever the output path has a parent; on a bare file
      name the code as written crashes where the corrected step leaves the
      filesystem alone. */
  lemma BareOutputNameCrashes(fs: Fs, output: Path)
    ensures |output| > 1 ==> CreateOutputDirectoryAsWritten(fs, output) == CreateOutputDirectory(fs, output)
    ensures |output| == 1 ==>
      CreateOutputDirectoryAsWritten(fs, output) == Err(NoParent) && CreateOutputDirectory(fs, output) == Ok(fs)
  {
  }

  /** The line logged before the error report is copied. */
  function ErrorsBanner(id: int): string {
    "Logging errors from Canvas SIS import " + IntToString(id)
  }

  /** The error report: when the final status has an `errors_attachment`,
      the banner line is logged, the attachment's URL is fetched without
      credentials, and every downloaded line goes to the errors log. */
  function ReportErrors(fs: Fs, id: int, final: Response, body: seq<LineRead>): (run: Trace)
    ensures run.fs == fs
    ensures run.errorLog != [] <==> ErrorsAttachment in final
    ensures run.requests != [] <==> ErrorsUrl(final).Ok? && ErrorsUrl(final).value.Some?
    ensures run.requests != [] ==>
      && run.requests == [Request(Get, Url(ErrorsUrl(final).value.value), [], [])]
      && run.errorLog == [ErrorsBanner(id)] + FetchLines(body).delivered
    ensures run.exit.Finished? <==>
      ErrorsAttachment !in final || (ErrorsUrl(final).Ok? && !FetchLines(body).failed)
    ensures !run.exit.ExitedEarly?
  {
    match ErrorsUrl(final)
    case Ok(None) => Trace(fs, [], [], Finished)
    case Err(f) => Trace(fs, [], [ErrorsBanner(id)], Crashed(f))
    case Ok(Some(url)) =>
      var fetched := FetchLines(body);
      Trace(fs, [Request(Get, Url(url), [], [])], [ErrorsBanner(id)] + fetched.delivered,
        if fetched.failed then Crashed(DownloadFailed) else Finished)
  }

  /** After the poll: the final status goes to a log file next to the
      output, then the output is renamed after the job (refusing to replace
      an existing file), then the error report is copied. */
  function Archive(s: Settings, fs: Fs, id: int, final: Response, w: World): (run: Trace)
    requires |s.output| > 0
    ensures |run.requests| <= 1
    ensures !run.exit.ExitedEarly?
    ensures run.exit.Finished? ==>
      var log := Sibling(s.output, StatusLogName(id));
      var archive := Sibling(s.output, ArchiveName(id));
      && WriteFile(fs, log, [[w.render(final)]]).Ok?
      && MoveNoReplace(WriteFile(fs, log, [[w.render(final)]]).value, s.output, archive).Ok?
      && run.fs == MoveNoReplace(WriteFile(fs, log, [[w.render(final)]]).value, s.output, archive).value.fs
  {
    var log := Sibling(s.output, StatusLogName(id));
    match WriteFile(fs, log, [[w.render(final)]])
    case Err(e) => Trace(fs, [], [], Crashed(WriteFailed(e)))
    case Ok(fs1) =>
      match MoveNoReplace(fs1, s.output, Sibling(s.output, ArchiveName(id)))
      case Err(e) => Trace(fs1, [], [], Crashed(ArchiveFailed(e)))
      case Ok(moved) => ReportErrors(moved.fs, id, final, w.errorsBody)
  }

  /** After the upload: the job id is read from the response, then the job's
      status is polled every 15 seconds under the 30-minute ceiling. */
  function Import(s: Settings, fs: Fs, w: World): (run: Trace)
    requires |s.output| > 0
    ensures |run.requests| <= MaxAttempts + 1
    ensures !run.exit.ExitedEarly?
  {
    match w.upload
    case None => Trace(fs, [], [], Crashed(UploadFailed))
    case Some(response) =>
      match ImportId(response)
      case Err(f) => Trace(fs, [], [], Crashed(f))
      case Ok(id) =>
        var o := Poll(Some(ImportFinished), w.status, StatusInterval, w.now);
        After(StatusPolls(s.canvas, id, o.attempts),
          if o.result.Returned? then Archive(s, fs, id, o.result.response, w)
          else Trace(fs, [], [], Crashed(PollFailed(o.result))))
  }

  /** `run`: an empty batch exits before touching anything; otherwise the
      output directory is created as the code does it (so a bare file name
      crashes), the CSV is written (header, then one line per record),
      uploaded, and the job followed to the end. */
  function Run(s: Settings, source: Option<seq<Record>>, fs: Fs, w: World): (run: Trace)
    ensures source.None? ==> run == Trace(fs, [], [], Crashed(SourceFailed))
    ensures source == Some([]) ==> run == Trace(fs, [], [], ExitedEarly)
    ensures run.exit.ExitedEarly? ==> source == Some([])
    ensures run.requests != [] ==>
      source.Some? && |source.value| > 0 && run.requests[0] == ImportRequest(s.canvas, CsvContent(source.value))
    ensures |run.requests| <= MaxAttempts + 2
  {
    match source
    case None => Trace(fs, [], [], Crashed(SourceFailed))
    case Some(records) =>
      if |records| == 0 then Trace(fs, [], [], ExitedEarly)
      else match CreateOutputDirectoryAsWritten(fs, s.output)
        case Err(f) => Trace(fs, [], [], Crashed(f))
        case Ok(fs1) =>
          match WriteFile(fs1, s.output, CsvContent(records))
          case Err(e) => Trace(fs1, [], [], Crashed(WriteFailed(e)))
          case Ok(fs2) => After([ImportRequest(s.canvas, CsvContent(records))], Import(s, fs2, w))
  }

  /** The job id a world's upload response names. */
  function JobId(w: World): int
    requires w.upload.Some? && ImportId(w.upload.value).Ok?
  {
    ImportId(w.upload.value).value
  }

  /** The final status of a poll of the job in `w`. */
  function Polled(w: World): PollOutcome {
    Poll(Some(ImportFinished), w.status, StatusInterval, w.now)
  }

  /** The CSV as it stands once written: the filesystem after the output
      directory step and the write, when both succeed. */
  function Written(s: Settings, records: seq<Record>, fs: Fs): (r: Option<Fs>)
    ensures r.Some? ==> |s.output| > 1 && s.output in r.value && r.value[s.output] == File(CsvContent(records))
    ensures r.Some? ==> IsDirectory(r.value, Container(s.output))
  {
    match CreateOutputDirectoryAsWritten(fs, s.output)
    case Err(_) => None
    case Ok(fs1) =>
      match WriteFile(fs1, s.output, CsvContent(records))
      case Err(_) => None
      case Ok(fs2) => Some(fs2)
  }

  /** A run with records whose output path has no directory part crashes
      before writing anything or sending a request. */
  lemma BareOutputRunCrashes(s: Settings, records: seq<Record>, fs: Fs, w: World)
    requires |records| > 0 && |s.output| <= 1
    ensures Run(s, Some(records), fs, w) == Trace(fs, [], [], Crashed(NoParent))
  {
  }

  /** A run that gets past the upload has written its CSV and uploaded it. */
  lemma RunUploads(s: Settings, records: seq<Record>, fs: Fs, w: World)
    requires |records| > 0
    ensures var run := Run(s, Some(records), fs, w);
      Written(s, records, fs).Some? ==>
        run == After([ImportRequest(s.canvas, CsvContent(records))], Import(s, Written(s, records, fs).value, w))
    ensures Written(s, records, fs).None? ==> Run(s, Some(records), fs, w).requests == []
  {
  }

  /** A job followed to the end: the poll returned a final status and the
      archive step ran on it. */
  lemma ImportFollowsJob(s: Settings, fs: Fs, w: World)
    requires |s.output| > 0
    requires Import(s, fs, w).exit.Finished?
    ensures w.upload.Some? && ImportId(w.upload.value).Ok?
    ensures Polled(w).result.Returned?
    ensures Import(s, fs, w)
      == After(StatusPolls(s.canvas, JobId(w), Polled(w).attempts), Archive(s, fs, JobId(w), Polled(w).result.response, w))
  {
  }

  /** A finished archive step leaves the CSV under the job's archive name
      and the final status in the job's log, both next to the output. */
  lemma ArchiveKeepsUpload(s: Settings, fs: Fs, id: int, final: Response, w: World)
    requires |s.output| > 0 && s.output in fs
    requires FileName(s.output) != StatusLogName(id)
    requires Archive(s, fs, id, final, w).exit.Finished?
    ensures var run := Archive(s, fs, id, final, w);
      var log := Sibling(s.output, StatusLogName(id));
      var archive := Sibling(s.output, ArchiveName(id));
      && archive in run.fs && run.fs[archive] == fs[s.output]
      && log in run.fs && run.fs[log] == File([[w.render(final)]])
      && (FileName(s.output) != ArchiveName(id) ==> s.output !in run.fs)
  {
    var log := Sibling(s.output, StatusLogName(id));
    var archive := Sibling(s.output, ArchiveName(id));
    NamesDistinguishJobs(id, id);
    assert log != s.output && archive != log;
    var fs3 := WriteFile(fs, log, [[w.render(final)]]).value;
    assert fs3[s.output] == fs[s.output] by {
      assert s.output in fs3 - {log};
    }
    var fs4 := MoveNoReplace(fs3, s.output, archive).value.fs;
    assert log in fs4 - {s.output, archive};
    assert (fs4 - {s.output, archive})[log] == fs3[log];
  }

  /** A run that finishes uploaded the CSV of its records and then polled
      the job it created, at the job's own status URL, until the watch let
      go. */
  lemma FinishedRunUploadsThenPolls(s: Settings, records: seq<Record>, fs: Fs, w: World)
    requires Run(s, Some(records), fs, w).exit.Finished?
    ensures |records| > 0 && |s.output| > 1
    ensures w.upload.Some? && ImportId(w.upload.value).Ok?
    ensures Polled(w).result.Returned?
    ensures var run := Run(s, Some(records), fs, w);
      && |run.requests| >= 1 + Polled(w).attempts
      && run.requests[..1 + Polled(w).attempts]
         == [ImportRequest(s.canvas, CsvContent(records))] + StatusPolls(s.canvas, JobId(w), Polled(w).attempts)
  {
    var inner := FinishedRunRequests(s, records, fs, w);
    PrefixOfConcatenation([ImportRequest(s.canvas, CsvContent(records))],
      StatusPolls(s.canvas, JobId(w), Polled(w).attempts), inner, Run(s, Some(records), fs, w).requests);
  }

  lemma FinishedRunRequests(s: Settings, records: seq<Record>, fs: Fs, w: World) returns (inner: seq<Request>)
    requires Run(s, Some(records), fs, w).exit.Finished?
    ensures |records| > 0 && |s.output| > 0
    ensures w.upload.Some? && ImportId(w.upload.value).Ok?
    ensures Polled(w).result.Returned?
    ensures Run(s, Some(records), fs, w).requests
      == [ImportRequest(s.canvas, CsvContent(records))] + (StatusPolls(s.canvas, JobId(w), Polled(w).attempts) + inner)
  {
    RunUploads(s, records, fs, w);
    var fs2 := Written(s, records, fs).value;
    ImportFollowsJob(s, fs2, w);
    inner := Archive(s, fs2, JobId(w), Polled(w).result.response, w).requests;
  }

  lemma PrefixOfConcatenation<T>(a: seq<T>, b: seq<T>, c: seq<T>, all: seq<T>)
    requires all == a + (b + c)
    ensures |all| >= |a| + |b| && all[..|a| + |b|] == a + b
  {
    assert all == (a + b) + c;
  }

  /** A run that finishes leaves the CSV under the job's archive name and
      the final status in the job's log file. The output file's own name
      must differ from the status log's, or the log would overwrite the CSV
      before the rename. */
  lemma FinishedRunArchivesTheUpload(s: Settings, records: seq<Record>, fs: Fs, w: World)
    requires Run(s, Some(records), fs, w).exit.Finished?
    ensures |s.output| > 0
    ensures w.upload.Some? && ImportId(w.upload.value).Ok?
    ensures Polled(w).result.Returned?
    ensures var run := Run(s, Some(records), fs, w);
      var id := JobId(w);
      var log := Sibling(s.output, StatusLogName(id));
      var archive := Sibling(s.output, ArchiveName(id));
      FileName(s.output) != StatusLogName(id) ==>
        && archive in run.fs && run.fs[archive] == File(CsvContent(records))
        && log in run.fs && run.fs[log] == File([[w.render(Polled(w).result.response)]])
        && (FileName(s.output) != ArchiveName(id) ==> s.output !in run.fs)
  {
    RunUploads(s, records, fs, w);
    var fs2 := Written(s, records, fs).value;
    ImportFollowsJob(s, fs2, w);
    if FileName(s.output) != StatusLogName(JobId(w)) {
      ArchiveKeepsUpload(s, fs2, JobId(w), Polled(w).result.response, w);
    }
  }

  /** With the output in place, free archive and log names, and a final
      status without an error report, the archive step finishes. */
  lemma ArchiveFinishes(s: Settings, fs: Fs, id: int, final: Response, w: World)
    requires |s.output| > 0 && IsRegularFile(fs, s.output) && IsDirectory(fs, Container(s.output))
    requires FileName(s.output) != StatusLogName(id) && FileName(s.output) != ArchiveName(id)
    requires Sibling(s.output, ArchiveName(id)) !in fs
    requires !IsDirectory(fs, Sibling(s.output, StatusLogName(id)))
    requires ErrorsAttachment !in final
    ensures Archive(s, fs, id, final, w).exit == Finished
  {
    var log := Sibling(s.output, StatusLogName(id));
    var archive := Sibling(s.output, ArchiveName(id));
    NamesDistinguishJobs(id, id);
    var fs3 := WriteFile(fs, log, [[w.render(final)]]).value;
    assert archive !in fs3 by {
      assert archive != log;
    }
    assert IsRegularFile(fs3, s.output) by {
      assert s.output in fs3 - {log};
    }
    assert Container(archive) == Container(s.output);
    assert IsDirectory(fs3, Container(archive)) by {
      assert Container(s.output) != log;
      if Container(s.output) != [] {
        assert Container(s.output) in fs3 - {log};
      }
    }
    assert !Below(s.output, archive);
    assert MoveNoReplace(fs3, s.output, archive).Ok?;
  }

  /** The CSV gets written when the output path has a directory part, no
      ancestor of the output is a regular file and the output itself is not
      a directory. */
  lemma CsvWritten(s: Settings, records: seq<Record>, fs: Fs)
    requires |s.output| > 1
    requires forall i :: 1 <= i < |s.output| ==> !IsRegularFile(fs, s.output[..i])
    requires !IsDirectory(fs, s.output)
    ensures Written(s, records, fs).Some?
    ensures forall p :: p in Written(s, records, fs).value && p != s.output ==>
      (p in fs && Written(s, records, fs).value[p] == fs[p]) || (|p| < |s.output| && Written(s, records, fs).value[p] == Directory)
  {
    var fs1 := CreateOutputDirectoryAsWritten(fs, s.output).value;
    assert !IsDirectory(fs1, s.output);
  }

  /** A run with records, an output path with a directory part that can be
      created, an upload that names a job, a poll that returns a final
      status without an error report, and free archive and log names
      finishes. */
  lemma RunFinishes(s: Settings, records: seq<Record>, fs: Fs, w: World)
    requires |records| > 0 && |s.output| > 1
    requires forall i :: 1 <= i < |s.output| ==> !IsRegularFile(fs, s.output[..i])
    requires !IsDirectory(fs, s.output)
    requires w.upload.Some? && "id" in w.upload.value && w.upload.value["id"].JNumber?
    requires Polled(w).result.Returned? && ErrorsAttachment !in Polled(w).result.response
    requires var id := JobId(w);
      && FileName(s.output) != StatusLogName(id) && FileName(s.output) != ArchiveName(id)
      && Sibling(s.output, ArchiveName(id)) !in fs
      && !IsDirectory(fs, Sibling(s.output, StatusLogName(id)))
    ensures Run(s, Some(records), fs, w).exit == Finished
  {
    var id := JobId(w);
    var log := Sibling(s.output, StatusLogName(id));
    var archive := Sibling(s.output, ArchiveName(id));
    CsvWritten(s, records, fs);
    RunUploads(s, records, fs, w);
    var fs2 := Written(s, records, fs).value;
    NamesDistinguishJobs(id, id);
    assert archive !in fs2 by {
      assert archive != s.output;
    }
    assert !IsDirectory(fs2, log) by {
      assert log != s.output;
    }
    ArchiveFinishes(s, fs2, id, Polled(w).result.response, w);
  }
}

=== FILE: polling.dfy ===
/** The job poller: `HttpApiService.poll` (with a 30-minute ceiling) and the
    older `HttpApiPollingService.pollJsonApi` (without one), over a scripted
    status endpoint and an integer clock in seconds. */
module Polling {
  import opened Wrappers
  import opened Http

  /** `Repeat.times(100)`: one initial attempt plus at most 100 repeats. */
  const MaxRepeats: nat := 100
  const MaxAttempts: nat := MaxRepeats + 1

  /** `blockLast(Duration.ofMinutes(30))`. */
  const TimeoutSeconds: nat := 30 * 60

  /** What one call of the status endpoint did, and how many seconds it
      took: a decoded answer, or a failure (I/O error, undecodable body),
      which `call` rethrows unchecked. */
  datatype Attempt = Answered(response: Response, latency: nat) | Broken(latency: nat)

  /** The status endpoint's behaviour on the k-th attempt (counting from 0). */
  type Script = nat -> Attempt

  /** Evaluating the compiled watch expression against a response: the value
      `TRUE`, any other non-null value (`FALSE`, a non-boolean), or an
      exception, which includes a `null` result (`equals` is then called on
      `null`). */
  datatype Verdict = Holds | DoesNotHold | Throws

  /** A compiled watch expression. */
  type Watch = Response -> Verdict

  datatype PollResult =
    | Returned(response: Response)
    | TransportFailed
    | EvaluationFailed
    | TimedOut
    | ExpressionInvalid

  /** How a poll ended: the number of requests issued, the clock when the
      caller got control back, and what it got. */
  datatype PollOutcome = PollOutcome(attempts: nat, clock: nat, result: PollResult)

  /** Seconds spent inside the calls of attempts `from` up to `to`. */
  function Busy(script: Script, from: nat, to: nat): nat
    decreases to
  {
    if to <= from then 0 else Busy(script, from, to - 1) + script(to - 1).latency
  }

  /** How attempt `k` ends the poll once its call returns in time: `None`
      when the watch does not hold and repeats remain, so the poll goes on. */
  function Settle(watch: Watch, a: Attempt, k: nat): (r: Option<PollResult>)
    ensures r.None? <==> a.Answered? && watch(a.response) == DoesNotHold && k + 1 < MaxAttempts
    ensures r.Some? && r.value.Returned? ==>
      && a.Answered? && r.value.response == a.response && watch(a.response) != Throws
      && (watch(a.response) == Holds || k + 1 >= MaxAttempts)
    ensures r.Some? && r.value.TransportFailed? ==> a.Broken?
    ensures r.Some? && r.value.EvaluationFailed? ==> a.Answered? && watch(a.response) == Throws
    ensures r.Some? ==> !r.value.TimedOut? && !r.value.ExpressionInvalid?
  {
    match a
    case Broken(_) => Some(TransportFailed)
    case Answered(response, _) =>
      match watch(response)
      case Throws => Some(EvaluationFailed)
      case Holds => Some(Returned(response))
      case DoesNotHold => if k + 1 < MaxAttempts then None else Some(Returned(response))
  }

  /** The poll from attempt `k`, issued at clock `start`. An attempt that
      would start after the deadline is never issued, and one still running
      at the deadline is abandoned. A response for which the watch does not
      hold schedules the next attempt `interval` seconds later; after the
      last permitted attempt the last response is returned instead. */
  function PollFrom(watch: Watch, script: Script, interval: nat, deadline: Option<nat>, k: nat, start: nat)
    : (o: PollOutcome)
    requires k < MaxAttempts
    ensures k <= o.attempts <= MaxAttempts
    ensures o.attempts == k ==> deadline.Some? && start > deadline.value && o.result.TimedOut?
    ensures deadline.None? ==> !o.result.TimedOut?
    ensures deadline.Some? ==> o.clock <= deadline.value
    ensures deadline.None? || start <= deadline.value ==> o.clock >= start
    ensures !o.result.TimedOut? ==> o.clock >= start + script(k).latency
    ensures o.result.Returned? ==>
      && script(o.attempts - 1).Answered?
      && script(o.attempts - 1).response == o.result.response
      && (watch(o.result.response) == Holds || o.attempts == MaxAttempts)
      && watch(o.result.response) != Throws
    ensures o.result.TransportFailed? ==> script(o.attempts - 1).Broken?
    ensures o.result.EvaluationFailed? ==>
      script(o.attempts - 1).Answered? && watch(script(o.attempts - 1).response) == Throws
    ensures !o.result.ExpressionInvalid?
    decreases MaxAttempts - k
  {
    if deadline.Some? && start > deadline.value then PollOutcome(k, deadline.value, TimedOut)
    else
      var end := start + script(k).latency;
      if deadline.Some? && end > deadline.value then PollOutcome(k + 1, deadline.value, TimedOut)
      else match Settle(watch, script(k), k)
        case Some(result) => PollOutcome(k + 1, end, result)
        case None => PollFrom(watch, script, interval, deadline, k + 1, end + interval)
  }

  /** Attempt `k` returned in time with a response the watch rejects, and
      repeats remain. */
  predicate GoesOn(watch: Watch, script: Script, deadline: Option<nat>, k: nat, start: nat) {
    && (deadline.None? || start + script(k).latency <= deadline.value)
    && Settle(watch, script(k), k).None?
  }

  lemma PollFromStep(watch: Watch, script: Script, interval: nat, deadline: Option<nat>, k: nat, start: nat)
    requires k < MaxAttempts
    requires GoesOn(watch, script, deadline, k, start)
    ensures k + 1 < MaxAttempts
    ensures PollFrom(watch, script, interval, deadline, k, start)
         == PollFrom(watch, script, interval, deadline, k + 1, start + script(k).latency + interval)
  {
  }

  lemma PollFromStops(watch: Watch, script: Script, interval: nat, deadline: Option<nat>, k: nat, start: nat)
    requires k < MaxAttempts
    requires !GoesOn(watch, script, deadline, k, start)
    ensures var o := PollFrom(watch, script, interval, deadline, k, start);
      o.attempts <= k + 1 && (!o.result.TimedOut? ==> o.clock == start + script(k).latency)
  {
  }

  /** When `blockLast` gives up: subscribing runs the first call (and the
      watch on its response) on the caller's thread, and only then does the
      30-minute wait begin, so the ceiling is counted from the end of the
      first call. */
  function Ceiling(script: Script, now: nat): nat {
    now + script(0).latency + TimeoutSeconds
  }

  /** `HttpApiService.poll`: the watch expression is compiled once, before
      any request (`None` when it does not compile); the poll is bounded by
      the 30-minute ceiling, which the first attempt never reaches. */
  function Poll(compiled: Option<Watch>, script: Script, interval: nat, now: nat): (o: PollOutcome)
    ensures compiled.None? <==> o.result.ExpressionInvalid?
    ensures compiled.None? ==> o.attempts == 0
    ensures compiled.Some? ==> 1 <= o.attempts <= MaxAttempts
    ensures now <= o.clock <= Ceiling(script, now)
    ensures compiled.Some? && Settle(compiled.value, script(0), 0).Some? ==>
      o == PollOutcome(1, now + script(0).latency, Settle(compiled.value, script(0), 0).value)
    ensures o.result.TimedOut? ==>
      script(0).Answered? && compiled.Some? && compiled.value(script(0).response) == DoesNotHold
  {
    match compiled
    case None => PollOutcome(0, now, ExpressionInvalid)
    case Some(watch) => PollFrom(watch, script, interval, Some(Ceiling(script, now)), 0, now)
  }

  /** `HttpApiPollingService.pollJsonApi`: the same loop with no ceiling;
      it never times out. */
  function PollJsonApi(compiled: Option<Watch>, script: Script, interval: nat, now: nat): (o: PollOutcome)
    ensures compiled.None? <==> o.result.ExpressionInvalid?
    ensures compiled.None? ==> o.attempts == 0
    ensures compiled.Some? ==> 1 <= o.attempts <= MaxAttempts
    ensures !o.result.TimedOut?
  {
    match compiled
    case None => PollOutcome(0, now, ExpressionInvalid)
    case Some(watch) => PollFrom(watch, script, interval, None, 0, now)
  }

  /** Every attempt before the last one issued got an answer for which the
      watch did not hold: the poll never continues past a satisfying
      response, a transport failure or an evaluation failure. */
  lemma {:induction false} EarlierAttemptsDidNotHold(
    watch: Watch, script: Script, interval: nat, deadline: Option<nat>, k: nat, start: nat, j: nat)
    requires k < MaxAttempts
    requires k <= j < PollFrom(watch, script, interval, deadline, k, start).attempts - 1
    ensures script(j).Answered? && watch(script(j).response) == DoesNotHold
    decreases MaxAttempts - k
  {
    if GoesOn(watch, script, deadline, k, start) {
      PollFromStep(watch, script, interval, deadline, k, start);
      if j > k {
        EarlierAttemptsDidNotHold(watch, script, interval, deadline, k + 1, start + script(k).latency + interval, j);
      }
    } else {
      PollFromStops(watch, script, interval, deadline, k, start);
    }
  }

  /** When the poll ends other than by the deadline, the clock has advanced by
      the time spent in the calls plus one interval between each two
      consecutive attempts. */
  lemma {:induction false} PollClock(
    watch: Watch, script: Script, interval: nat, deadline: Option<nat>, k: nat, start: nat)
    requires k < MaxAttempts
    ensures var o := PollFrom(watch, script, interval, deadline, k, start);
      !o.result.TimedOut? ==> k < o.attempts && o.clock == ClockAfter(script, interval, k, start, o.attempts)
    decreases MaxAttempts - k
  {
    if GoesOn(watch, script, deadline, k, start) {
      var next := start + script(k).latency + interval;
      PollFromStep(watch, script, interval, deadline, k, start);
      PollClock(watch, script, interval, deadline, k + 1, next);
      var o := PollFrom(watch, script, interval, deadline, k + 1, next);
      if !o.result.TimedOut? {
        ClockAfterStep(script, interval, k, start, o.attempts);
      }
    } else {
      PollFromStops(watch, script, interval, deadline, k, start);
      assert Busy(script, k, k + 1) == script(k).latency;
    }
  }

  /** Seconds spent in `m` backoff sleeps of `interval` seconds each. */
  function Sleeps(m: nat, interval: nat): nat {
    if m == 0 then 0 else Sleeps(m - 1, interval) + interval
  }

  lemma {:induction false} SleepsIsProduct(m: nat, interval: nat)
    ensures Sleeps(m, interval) == m * interval
  {
    if m > 0 {
      SleepsIsProduct(m - 1, interval);
    }
  }

  /** The clock at the end of attempt `n - 1` when attempt `k` starts at
      `start` and no attempt in between stops the poll: the time spent in the
      calls plus one backoff sleep between each two consecutive attempts. */
  function ClockAfter(script: Script, interval: nat, k: nat, start: nat, n: nat): nat
    requires k < n
  {
    start + Busy(script, k, n) + Sleeps(n - 1 - k, interval)
  }

  lemma ClockAfterStep(script: Script, interval: nat, k: nat, start: nat, n: nat)
    requires k + 1 < n
    ensures ClockAfter(script, interval, k, start, n)
         == ClockAfter(script, interval, k + 1, start + script(k).latency + interval, n)
  {
    BusySplit(script, k, n);
  }

  lemma {:induction false} BusySplit(script: Script, k: nat, n: nat)
    requires k < n
    ensures Busy(script, k, n) == script(k).latency + Busy(script, k + 1, n)
    decreases n
  {
    if n > k + 1 {
      BusySplit(script, k, n - 1);
    }
  }

  /** Given responses r1..rn where the watch holds first at rn, the poll
      returns rn after exactly n requests and n-1 intervals. */
  lemma FirstHoldingResponseIsReturned(watch: Watch, script: Script, interval: nat, now: nat, n: nat)
    requires 0 < n <= MaxAttempts
    requires forall j :: 0 <= j < n - 1 ==> script(j).Answered? && watch(script(j).response) == DoesNotHold
    requires script(n - 1).Answered? && watch(script(n - 1).response) == Holds
    ensures PollJsonApi(Some(watch), script, interval, now)
      == PollOutcome(n, ClockAfter(script, interval, 0, now, n), Returned(script(n - 1).response))
  {
    var o := PollFrom(watch, script, interval, None, 0, now);
    if o.attempts > n {
      EarlierAttemptsDidNotHold(watch, script, interval, None, 0, now, n - 1);
      assert false;
    }
    assert o.attempts == n;
    assert !o.result.TransportFailed? && !o.result.EvaluationFailed? && !o.result.TimedOut?;
    assert o.result == Returned(script(n - 1).response);
    PollClock(watch, script, interval, None, 0, now);
    assert o.clock == ClockAfter(script, interval, 0, now, n);
    assert PollJsonApi(Some(watch), script, interval, now) == o;
  }

  /** If the watch never holds within the budget, the poll makes every one of
      the 101 attempts and returns the last response rather than failing. */
  lemma ExhaustedPollReturnsLastResponse(watch: Watch, script: Script, interval: nat, now: nat)
    requires forall j :: 0 <= j < MaxAttempts ==> script(j).Answered? && watch(script(j).response) == DoesNotHold
    ensures PollJsonApi(Some(watch), script, interval, now)
      == PollOutcome(MaxAttempts, ClockAfter(script, interval, 0, now, MaxAttempts),
                     Returned(script(MaxRepeats).response))
  {
    var o := PollFrom(watch, script, interval, None, 0, now);
    assert o.attempts == MaxAttempts by {
      assert script(o.attempts - 1).Answered?;
    }
    PollClock(watch, script, interval, None, 0, now);
  }

  /** The only difference the ceiling makes: a poll that would have ended by
      the deadline ends the same way with it, and one that would have ended
      later times out instead, having issued no more requests. */
  lemma {:induction false} DeadlineOnlyTruncates(
    watch: Watch, script: Script, interval: nat, d: nat, k: nat, start: nat)
    requires k < MaxAttempts
    ensures var u := PollFrom(watch, script, interval, None, k, start);
      var c := PollFrom(watch, script, interval, Some(d), k, start);
      && (u.clock <= d ==> c == u)
      && (u.clock > d ==> c.result.TimedOut? && c.attempts <= u.attempts && c.clock == d)
    decreases MaxAttempts - k
  {
    var next := start + script(k).latency + interval;
    if GoesOn(watch, script, Some(d), k, start) {
      PollFromStep(watch, script, interval, Some(d), k, start);
      PollFromStep(watch, script, interval, None, k, start);
      DeadlineOnlyTruncates(watch, script, interval, d, k + 1, next);
    } else if GoesOn(watch, script, None, k, start) {
      PollFromStep(watch, script, interval, None, k, start);
    } else {
      PollFromStops(watch, script, interval, None, k, start);
    }
  }

  /** With the ceiling, the poll fails rather than returns whenever the
      unbounded poll would still be running 30 minutes after the first call
      returned, even if the repeat budget would allow more attempts. */
  lemma TimeoutWins(compiled: Option<Watch>, script: Script, interval: nat, now: nat)
    requires compiled.Some?
    requires PollJsonApi(compiled, script, interval, now).clock > Ceiling(script, now)
    ensures Poll(compiled, script, interval, now).result == TimedOut
  {
    DeadlineOnlyTruncates(compiled.value, script, interval, Ceiling(script, now), 0, now);
  }

  /** Both pollers agree whenever the unbounded one finishes within 30
      minutes of the end of its first call. */
  lemma PollersAgreeWithinCeiling(compiled: Option<Watch>, script: Script, interval: nat, now: nat)
    requires PollJsonApi(compiled, script, interval, now).clock <= Ceiling(script, now)
    ensures Poll(compiled, script, interval, now) == PollJsonApi(compiled, script, interval, now)
  {
    if compiled.Some? {
      DeadlineOnlyTruncates(compiled.value, script, interval, Ceiling(script, now), 0, now);
    }
  }
}

=== FILE: sql.dfy ===
/** Rows as `JdbcTemplate.queryForList` returns them, and the `(String)`
    cast the runners and the Banner source apply to a column. */
module Sql {
  import opened Wrappers

  /** A column value: a character string, SQL `NULL`, or anything else (a
      number, a date), which a cast to `String` rejects. */
  datatype SqlValue = SqlString(s: string) | SqlNull | SqlOther

  /** ASCII `toLowerCase`; the other characters are kept as they are. */
  function Lower(c: char): (l: char)
    ensures 'A' <= c <= 'Z' ==> l as int == c as int + 32
    ensures !('A' <= c <= 'Z') ==> l == c
  {
    if 'A' <= c <= 'Z' then (c as int + 32) as char else c
  }

  /** The case-folded form of a column label, the key a
      `LinkedCaseInsensitiveMap` stores it under. */
  function Fold(name: string): (f: string)
    ensures |f| == |name|
    ensures forall i :: 0 <= i < |name| ==> f[i] == Lower(name[i])
  {
    seq(|name|, i requires 0 <= i < |name| => Lower(name[i]))
  }

  /** One result row as `queryForList` returns it: a
      `LinkedCaseInsensitiveMap`, written here as a map keyed by the folded
      column label. */
  type Row = map<string, SqlValue>

  /** The columns of one result row as the driver reports them, labels as
      the database spells them (Oracle: upper case), in select-list order. */
  type Columns = seq<(string, SqlValue)>

  /** `ColumnMapRowMapper` of Spring Framework 5, whose `mapRow` calls
      `putIfAbsent` for each column in turn: a label equal to an earlier one
      but for case replaces the earlier value only when that value is `null`
      (`LinkedCaseInsensitiveMap.putIfAbsent` over a `LinkedHashMap`). */
  function ToRow(columns: Columns): (row: Row)
    ensures forall k :: k in row <==> exists i :: 0 <= i < |columns| && Fold(columns[i].0) == k
    decreases |columns|
  {
    if |columns| == 0 then map[]
    else
      var n := |columns| - 1;
      var front := columns[..n];
      assert forall i :: 0 <= i < n ==> front[i] == columns[i];
      var earlier := ToRow(front);
      var key := Fold(columns[n].0);
      if key in earlier && earlier[key] != SqlNull then earlier
      else earlier[key := columns[n].1]
  }

  /** A label all of whose columns are `NULL` reads `NULL` from the row,
      if it is there at all. */
  lemma {:induction false} ToRowAllNull(columns: Columns, key: string)
    requires forall j :: 0 <= j < |columns| && Fold(columns[j].0) == key ==> columns[j].1 == SqlNull
    ensures key in ToRow(columns) ==> ToRow(columns)[key] == SqlNull
    decreases |columns|
  {
    if |columns| > 0 {
      var n := |columns| - 1;
      var front := columns[..n];
      forall j | 0 <= j < |front| && Fold(front[j].0) == key
        ensures front[j].1 == SqlNull
      {
        assert front[j] == columns[j];
      }
      ToRowAllNull(front, key);
    }
  }

  /** The value a row holds under a folded label is that of the first
      column with that label whose value is not `NULL`. */
  lemma {:induction false} ToRowFirstWins(columns: Columns, i: nat)
    requires i < |columns| && columns[i].1 != SqlNull
    requires forall j :: 0 <= j < i && Fold(columns[j].0) == Fold(columns[i].0) ==> columns[j].1 == SqlNull
    ensures ToRow(columns)[Fold(columns[i].0)] == columns[i].1
    decreases |columns|
  {
    var n := |columns| - 1;
    var front := columns[..n];
    var key := Fold(columns[i].0);
    if i == n {
      forall j | 0 <= j < |front| && Fold(front[j].0) == key
        ensures front[j].1 == SqlNull
      {
        assert front[j] == columns[j];
      }
      ToRowAllNull(front, key);
    } else {
      assert front[i] == columns[i];
      forall j | 0 <= j < i && Fold(front[j].0) == Fold(front[i].0)
        ensures front[j].1 == SqlNull
      {
        assert front[j] == columns[j];
      }
      ToRowFirstWins(front, i);
    }
  }

  datatype SqlError = QueryFailed | NotAString(column: string)

  /** `(String) row.get(column)`: the label is looked up ignoring case; a
      missing column or a `NULL` reads as `null`; a non-string value throws
      `ClassCastException`. */
  function StringColumn(row: Row, column: string): (r: Result<Option<string>, SqlError>)
    ensures r.Err? <==> Fold(column) in row && row[Fold(column)] == SqlOther
    ensures r == Ok(None) <==> Fold(column) !in row || row[Fold(column)] == SqlNull
    ensures r.Ok? && r.value.Some? ==> Fold(column) in row && row[Fold(column)] == SqlString(r.value.value)
  {
    var key := Fold(column);
    if key !in row then Ok(None)
    else match row[key]
      case SqlString(s) => Ok(Some(s))
      case SqlNull => Ok(None)
      case SqlOther => Err(NotAString(column))
  }

  /** The row's value under `column` reads as a string or `null`. */
  predicate Castable(row: Row, column: string) {
    Fold(column) !in row || row[Fold(column)] != SqlOther
  }

  /** A column reads the same under any spelling of its label: the lookup
      ignores case, so the upper-case labels Oracle reports are found by the
      lower-case names the code asks for. Of several columns with that
      label, the first that is not `NULL` is the one read. */
  lemma LookupIgnoresCase(columns: Columns, i: nat, column: string)
    requires i < |columns| && Fold(columns[i].0) == Fold(column) && columns[i].1 != SqlNull
    requires forall j :: 0 <= j < i && Fold(columns[j].0) == Fold(column) ==> columns[j].1 == SqlNull
    ensures StringColumn(ToRow(columns), column) ==
      match columns[i].1
      case SqlString(s) => Ok(Some(s))
      case SqlNull => Ok(None)
      case SqlOther => Err(NotAString(column))
  {
    ToRowFirstWins(columns, i);
  }

  /** A label that no column carries, in any case, or whose every column is
      `NULL`, reads as `null`. */
  lemma NullColumnsReadNull(columns: Columns, column: string)
    requires forall j :: 0 <= j < |columns| && Fold(columns[j].0) == Fold(column) ==> columns[j].1 == SqlNull
    ensures StringColumn(ToRow(columns), column) == Ok(None)
  {
    ToRowAllNull(columns, Fold(column));
  }
}

=== FILE: wrappers.dfy ===
/** Failure-carrying values used throughout the model in place of Java's null
    references and thrown exceptions. */
module Wrappers {

  /** A possibly absent value; `None` stands for a Java `null`. */
  datatype Option<+T> = None | Some(value: T)

  /** The outcome of an operation that can throw: the value it returns, or the
      reason it failed. Usable with `:-`, which passes a failure on. */
  datatype Result<+T, +E> = Ok(value: T) | Err(error: E) {

    predicate IsFailure() {
      Err?
    }

    function PropagateFailure<U>(): Result<U, E>
      requires Err?
    {
      Err(error)
    }

    function Extract(): T
      requires Ok?
    {
      value
    }
  }
}
